=== FILE: README.md ===
# banesa sampling engine in Dafny

banesa draws samples from a graph of nodes and stores one database row per
sample. Each node has a name, the names of the nodes it depends on, and
value factories for its output slots. A value factory is primitive (int or
double), file-backed, hidden or an SE3 pose. A run of `Sampler::run` does
the following:

- it creates the `samples` table, with an `id` primary key and the columns
  of every factory;
- it gives every node a range of slots in one flat value vector, with the
  `offset` and `node_map` tables;
- it prepares an `INSERT` statement with one `?` placeholder per column;
- it orders the nodes so that dependencies come first (`reorderNodes`);
- for every sample it calls each node's sampling function on the node's
  gathered inputs and outputs, then binds every value into the statement
  (`saveSample`) and steps it.

Sampling is sequential (one value vector reused across samples) or
multithreaded (a fresh value table per sample, behind a source / sampler /
export pipeline).

The model is split into one module per concern:

| module | file | what it holds |
|---|---|---|
| `Values` | values.dfy | the four factory kinds, their column names and types, values and their cells, `createValue`, `setPath`, `bind` on a statement modelled as a map from 1-based parameter index to parameter |
| `Nodes` | nodes.dfy | the node record and its registration operations, graph names and graph factories |
| `Scheduler` | scheduler.dfy | `reorderNodes` as a stack and processed-set traversal, plus its correctness and completeness properties |
| `Schema` | schema.dfy | the `CREATE TABLE` and `INSERT` strings and the loops that build them |
| `Allocation` | allocation.dfy | the offset and node maps, the factory list, fresh value vectors, input and output gathering |
| `Evaluation` | evaluation.dfy | evaluating the scheduled nodes for one sample: the sequential vector (`Sweep`) and the per-sample table (`SamplerBody`) |
| `Storage` | storage.dfy | `saveSample`: the offset threading and the row a step inserts |
| `Source` | source.dfy | `SourceBody`, the emitter of sample numbers |
| `Sampler` | sampler.dfy | `initializeDatabase`, `createInsertionStatement`, both sampling branches and `run`, with the database as an oracle of call results |
| `StaleSampler` | stale_sampler.dfy | the older driver of `src/banesa.cpp`, declared in no header and called by nothing, which never reorders nodes |
| `Example` | example.dfy | the three-node graph of the example program, used as a concrete fixture |
| `Wrappers` | wrappers.dfy | `Option` |
| `Seqs` | seqs.dfy | counting occurrences in a sequence |

A node's sampling function is user code. It is modelled as a parameter,
`Behaviour`. Given the sample number, the node, its gathered inputs and its
current outputs, it proposes new contents for the outputs. A proposal of
another dynamic type than the slot's is not applied, because the C++ object
behind a slot cannot change its type.

The database is modelled as a record of booleans. Each boolean says whether
a call succeeds: open, exec, prepare, finalize, close. Step results are a
function of the sample number. A run's observable result is an `Outcome`:
- the failure, if any;
- the schema query and the insertion statement it issued;
- the node order it sampled in;
- the rows it inserted.

Three behaviours of the code are easy to miss, and the model keeps them:

- **Graph errors are never reported.** `run` sets up an "Incorrect graph!"
  failure after `reorderNodes` (src/banesa_sampler.cpp:289-293), which
  shows that an invalid graph was meant to be rejected. But `reorderNodes`
  always returns true (line 453). A node with a dependency that names no
  node is left out of the order, and so, when names are distinct, is a
  node on a dependency cycle. So is every node that depends on a left-out
  node, directly or through other nodes. With a repeated name a cycle can
  go unnoticed: the second node of the name is skipped and the cycle
  through it is broken.
  The run still writes rows, with those nodes' slots at their fresh values
  (see Findings). A node is ordered exactly when its dependencies all are.
- **The statement is prepared before the nodes are ordered** (lines
  281-293). The failure reported is the first failing phase in that order.
- **Multithreaded insert failures are not fatal.** The export body only
  prints a message when a step fails (lines 120-130). Every sample is still
  drawn, and the run goes on to finalize. Only the sequential loop stops at
  the first failed insertion (line 319).

## Model

| member | source | states |
|---|---|---|
| Values.ColumnNames | src/banesa_primitive_value.h:51-54 | a factory contributes as many column names as its kind's arity: 1 for primitive and file, 0 for hidden, 7 for SE3 |
| Values.ColumnTypes | src/banesa_primitive_value.h:64-74 | the column types have the same length as the column names, so names and types stay aligned |
| Values.ColumnsNamedAfterFactory | src/banesa_se3_value.h:87-97 | every column name a factory contributes starts with the factory's name |
| Values.ColumnTypesAreSqlTypes | src/banesa_se3_value.h:99-102 | every column type is INTEGER, FLOAT or TEXT |
| Values.Fields | src/banesa_file_value.h:25-29 | a well-typed value contributes one parameter per column of its factory |
| Values.CreateValue | src/banesa_se3_value.h:10-19 | a new value is bound to the creating factory, has that factory's dynamic type, and every field is the zero of its type (0, 0.0, empty path) |
| Values.FreshPoseIsNotARotation | src/banesa_se3_value.h:10-19 | a fresh pose's quaternion has squared norm 0, not 1 |
| Values.SetPath | src/banesa_file_value.h:20-23 | the path is replaced; the factory, the payload and well-typedness are kept; the value then binds exactly the new path |
| Values.Bind | src/banesa_se3_value.h:56-66 | the value's parameters land at `offset`, `offset+1`, ... in column order; the offset advances by their number; every other binding is kept and nothing else is bound |
| Values.BindAdvancesByColumnCount | src/banesa_primitive_value.h:28-40 | binding a well-typed value advances the offset by its factory's column count (1, 1, 0 or 7) |
| Nodes.NewNode | src/banesa_core.h:61-63 | a new node has no dependencies and no factories |
| Nodes.SetName | src/banesa_core.h:84-87 | the name becomes the one set; dependencies and factories are unchanged |
| Nodes.RegisterDependency | src/banesa_core.h:89-92 | the dependency is appended at the end; earlier ones, the name and the factories are kept |
| Nodes.RegisterValueFactory | src/banesa_core.h:94-97 | the factory is appended at the end; earlier ones, the name and the dependencies are kept |
| Nodes.DependenciesInRegistrationOrder | src/banesa_core.h:70-73 | registering a list of dependencies one by one leaves exactly the earlier list followed by the new one |
| Nodes.FactoriesInRegistrationOrder | src/banesa_core.h:75-78 | registering a list of factories one by one leaves exactly the earlier list followed by the new one |
| Nodes.DeclaredNodeReportsDeclaration | src/banesa_core.h:65-78 | a node built by setName then registrations reports that name, those dependencies and those factories, in order |
| Scheduler.AllDependenciesAvailable | src/banesa_sampler.cpp:428-432 | the availability flag is true exactly when every dependency name is processed |
| Scheduler.ChildrenOf | src/banesa_sampler.cpp:401-407 | the children list of a name holds exactly the graph nodes that depend on it |
| Scheduler.ReorderNodes | src/banesa_sampler.cpp:395-454 | the result is always true; the order holds only graph nodes, no name twice, each node after all of its dependencies; it is closed: every graph node whose dependencies are all in the order, roots included, is in it, so only nodes that cannot be ordered are left out; for a graph with distinct names, resolved dependencies and no cycle it is a permutation of the graph |
| Scheduler.TraverseFrom | src/banesa_sampler.cpp:411-443 | one root's traversal keeps the order valid; the processed set is exactly the names output; the root is processed; afterwards every node with at least one dependency, all of them processed, is processed itself |
| Scheduler.VisitChildren | src/banesa_sampler.cpp:421-441 | scanning a popped node's children keeps the order valid and leaves processed every child whose dependencies were all popped |
| Scheduler.VisitChild | src/banesa_sampler.cpp:424-440 | after the visit the child is processed unless one of its dependencies has not been popped yet; the order stays valid, so no name is output twice and dependencies come first |
| Scheduler.ProcessedByRank | src/banesa_sampler.cpp:411-443 | in an acyclic resolved graph, a processed set closed under the traversal contains every node |
| Scheduler.ScheduleCoversGraph | src/banesa_sampler.cpp:411-444 | a valid schedule that names every node of a graph with distinct names contains every node |
| Scheduler.DanglingNodeIsDropped | src/banesa_sampler.cpp:424-440 | a node with a dependency that names no graph node is never output, whatever the names; with distinct names the order is therefore shorter than the graph |
| Scheduler.DependentOfDroppedIsDropped | src/banesa_sampler.cpp:424-440 | a node with a dependency missing from a valid schedule is missing too, so dropping propagates to every node that depends on a dropped node, directly or transitively |
| Scheduler.ChainBehindDanglingIsDropped | src/banesa_sampler.cpp:411-440 | for `b` depending on the missing `z` and `a` on `b`, no valid schedule holds either node, though `a` is on no cycle and its dependency names a graph node |
| Scheduler.CycleIsDropped | src/banesa_sampler.cpp:411-444 | in a graph with distinct names, no node of a dependency cycle is output, so the order is shorter than the graph |
| Scheduler.RepeatedNameHidesCycle | src/banesa_sampler.cpp:411-440 | why the distinct names are needed: in `[x, y -> x, x -> y]` the order `[x, y]` is valid although `y` lies on the cycle through the second `x` |
| Scheduler.FullScheduleWitnesses | src/banesa_sampler.cpp:411-444 | a valid schedule as long as the graph shows that names are distinct, dependencies resolve and there is no cycle (converse of completeness) |
| Scheduler.ReorderNodesChecked | src/banesa_sampler.cpp:289-293 | the corrected check: success exactly when names are distinct, dependencies resolve and there is no cycle, and then the order is a permutation; the order is valid and closed either way |
| Schema.ColumnsOfAppend | src/banesa_sampler.cpp:147-157 | the columns of concatenated factory lists are the concatenated columns |
| Schema.TypesOf | src/banesa_sampler.cpp:147-157 | the types list of any factory list is as long as its column list |
| Schema.JoinSnoc | src/banesa_sampler.cpp:162-170 | joining one more item adds ", " before it unless it is the first |
| Schema.SchemaColumns | src/banesa_sampler.cpp:139-157 | the column list is `id` followed by every factory's names in node-then-factory order; the types list is `INTEGER PRIMARY KEY` followed by the aligned types |
| Schema.GraphColumns | src/banesa_sampler.cpp:147-157 | the node loop collects every node's factory columns and types, in graph order |
| Schema.AppendColumns | src/banesa_sampler.cpp:149-156 | one node's loop appends exactly its factories' columns and types |
| Schema.TableQuery | src/banesa_sampler.cpp:159-171 | the query is the reset, then the create statement with `name type` definitions separated by ", ", then ");" |
| Schema.InsertionStatement | src/banesa_sampler.cpp:188-223 | the statement lists every factory column (no `id`) and as many `?` placeholders; the field count is the number of columns |
| Schema.ColumnList | src/banesa_sampler.cpp:196-211 | the column part of the statement is the columns joined by ", ", and the counter ends at their number |
| Schema.PlaceholderList | src/banesa_sampler.cpp:215-222 | the placeholder part is `field_count` question marks joined by ", " |
| Schema.PlaceholderMarks | src/banesa_sampler.cpp:215-222 | the placeholder part holds exactly `field_count` question marks |
| Allocation.Allocate | src/banesa_sampler.cpp:259-267 | the factory list is the graph's factories; the offset keys are the graph's names; each name's slice of the factories is its node's factories; the last node of each name owns its entries at the running factory count |
| Allocation.AllocateSnoc | src/banesa_sampler.cpp:259-267 | appending a node to the graph adds one iteration of the allocation loop |
| Allocation.OffsetIsPrecedingFactoryCount | src/banesa_sampler.cpp:261-262 | with distinct names, a node's offset is the number of factories of the nodes declared before it, and its name maps to it |
| Allocation.SlicesTile | src/banesa_sampler.cpp:259-267 | in a graph with distinct names, slices start at 0, each starts where the previous ends, the last ends at the factory count, and they are disjoint |
| Allocation.FreshValues | src/banesa_sampler.cpp:269-275 | one fresh value per factory, in factory order |
| Allocation.FreshValuesAligned | src/banesa_sampler.cpp:269-275 | fresh values line up with the factories and are well typed |
| Allocation.GatherInputs | src/banesa_sampler.cpp:74-84 | the inputs number exactly as many values as the dependencies, in declaration order, have factories; `Allocation.InputsAreDependencySlots` adds that they are values of exactly those factories |
| Allocation.GatherOutputs | src/banesa_sampler.cpp:88-93 | the outputs are the node's own range: its factory count of values, the k-th being the slot at the node's offset plus k |
| Allocation.InputsAreDependencySlots | src/banesa_sampler.cpp:327-337 | gathered inputs are, in dependency order, values of exactly each dependency's factories |
| Allocation.OutputsAreOwnSlots | src/banesa_sampler.cpp:341-346 | gathered outputs fit in the vector and are values of exactly the node's own factories |
| Allocation.ScheduledLookupsHit | src/banesa_sampler.cpp:78-82 | for any graph, every node of a valid schedule has its name allocated, and each of its dependencies is allocated with a slice inside the value vector |
| Allocation.ScheduledNodesResolve | src/banesa_sampler.cpp:88-93 | in a graph with distinct names, a scheduled node's name also maps back to it and its own outputs lie inside the value vector, so every lookup of a run hits |
| Allocation.RepeatedNameOverrunsSlice | src/banesa_sampler.cpp:259-267 | why the distinct names are needed: for `[x with two factories, x with one]` the first node's output range at the name's offset runs past the three-slot vector |
| Allocation.GraphNodesResolve | src/banesa.cpp:158-175 | in a graph with distinct names and resolved dependencies, every lookup made in graph order hits |
| Evaluation.Overwrite | src/banesa_sampler.cpp:88-97 | the outputs keep their factories and their well-typedness after the sampling function writes them |
| Evaluation.EvaluateNode | src/banesa_sampler.cpp:72-97 | one node's step changes only the node's own slots and keeps every slot's factory and type |
| Evaluation.EvaluateNodes | src/banesa_sampler.cpp:70-98 | evaluating the order leaves every slot of an unscheduled node untouched and keeps factories and types |
| Evaluation.Sweep | src/banesa_sampler.cpp:319-351 | the sequential vector stays aligned with the factories and well typed after any number of samples |
| Evaluation.SweepKeepsUnscheduledFresh | src/banesa_sampler.cpp:269-275 | after any number of sequential samples, a slot of no ordered node still holds the value `createValue` made for it |
| Evaluation.SamplerBody | src/banesa_sampler.cpp:56-101 | the table carries its sample number, is aligned and well typed, and a slot of no scheduled node keeps its fresh value |
| Evaluation.FirstSampleAgrees | src/banesa_sampler.cpp:61-68 | the first sequential sample equals the per-sample table of sample 0 |
| Storage.BindAll | src/banesa_sampler.cpp:385-390 | binding a vector value by value puts the row's parameters at consecutive positions from the offset, advances the offset by the row's width, and keeps all other bindings |
| Storage.SaveSample | src/banesa_sampler.cpp:381-392 | binding starts at parameter 1 and the final offset is 1 plus the row's width |
| Storage.RowFillsPlaceholders | src/banesa_sampler.cpp:381-392 | an aligned well-typed vector binds exactly as many parameters as the statement has columns, so `saveSample`'s offset ends at 1 plus the column count |
| Storage.SaveSampleStoresRow | src/banesa_sampler.cpp:381-392 | after binding, every placeholder is bound and the inserted row is the values' fields in slot order, whatever was bound before |
| Source.NewSource | src/banesa_sampler.cpp:13-17 | a new source starts at sample 0 with the requested count |
| Source.Pull | src/banesa_sampler.cpp:19-31 | a pull emits the next sample number and advances exactly when samples remain; otherwise the state is unchanged |
| Source.EmissionsFrom | src/banesa_sampler.cpp:19-31 | k pulls emit the consecutive numbers from the current one while below the count, then nothing |
| Source.SourceYieldsEachIndexOnce | src/banesa_sampler.cpp:19-31 | a new source emits 0, 1, ..., N-1 in order, then nothing forever; N <= 0 emits nothing |
| Sampler.MessagesIdentifyFailures | src/banesa_sampler.cpp:245-370 | the failure messages are pairwise distinct |
| Sampler.InitializeDatabase | src/banesa_sampler.cpp:137-186 | the query is the schema of the graph's factories; success exactly when open and exec succeed |
| Sampler.CreateInsertionStatement | src/banesa_sampler.cpp:188-226 | the statement and field count are those of the factories' columns; success exactly when prepare succeeds |
| Sampler.SweepRowsAt | src/banesa_sampler.cpp:319-357 | row j of a sequential run is the vector after j+1 samples |
| Sampler.SuccessfulPrefixStopsAtFirstFailure | src/banesa_sampler.cpp:319-356 | every insertion in the successful prefix succeeds and the one after it fails |
| Sampler.SuccessfulPrefixStays | src/banesa_sampler.cpp:319 | once an insertion fails, later samples add no rows |
| Sampler.SampleSequentially | src/banesa_sampler.cpp:317-358 | the rows are those of the samples before the first failed insertion, row j being the reused vector after j+1 samples; success exactly when all samples were inserted |
| Sampler.NextSample | src/banesa_sampler.cpp:321-356 | one iteration advances the vector by one sample, and the inserted row is the fields of the updated vector |
| Sampler.PipelineRowsAllSucceed | src/banesa_sampler.cpp:56-101 | when every insertion succeeds the pipeline inserts one row per sample, row j being sample j's fresh table |
| Sampler.SampleInPipeline | src/banesa_sampler.cpp:299-315 | every emitted sample is computed on a fresh table and exported; failed insertions are skipped, not fatal |
| Sampler.ExportSample | src/banesa_sampler.cpp:120-130 | the inserted row is the fields of the sample's fresh table |
| Sampler.Setup | src/banesa_sampler.cpp:245-286 | set-up succeeds exactly when the database is prepared; otherwise the error is the first failing phase |
| Sampler.SampleAndRelease | src/banesa_sampler.cpp:297-371 | the rows are those of the chosen branch; the failure is the insertion, finalize or close phase that failed first, or none |
| Sampler.Run | src/banesa_sampler.cpp:228-379 | set-up failures are reported in order; "Incorrect graph!" is never reported; the order is a valid schedule, and once prepared it is closed, so every node whose dependencies are all ordered is evaluated; once prepared, the rows and the insertion, finalize and close failures are those of `SampleAndRelease`; for a resolved acyclic graph the order is a permutation of the graph, so every node is evaluated |
| Sampler.RunChecked | src/banesa_sampler.cpp:289-293 | the corrected run: once prepared, an incorrect graph is reported exactly when the graph has repeated names, a dangling dependency or a cycle, and then no row is written; otherwise every node is sampled |
| Sampler.UnevaluatedSlotIsFresh | src/banesa_sampler.cpp:269-275 | in the one-node example with one int factory and no node ordered, the one stored row is the fresh value `[0]` |
| Sampler.DanglingDependencyIsWritten | src/banesa_sampler.cpp:453 | a one-node graph with a dangling dependency: as written, the run succeeds and stores the unevaluated fresh value; corrected, it reports an incorrect graph and stores nothing |
| StaleSampler.StaleMessagesIdentifyFailures | src/banesa.cpp:98-207 | the failure messages are pairwise distinct |
| StaleSampler.CreateTable | src/banesa.cpp:6-43 | the query has the same schema as `initializeDatabase`; success exactly when exec succeeds |
| StaleSampler.CreateInsertionStatementFromValues | src/banesa.cpp:45-83 | the statement lists the columns of each value's factory, with as many placeholders |
| StaleSampler.FreshValuesKeepFactories | src/banesa.cpp:118-127 | fresh values carry the factories they were created from, in order |
| StaleSampler.StaleRun | src/banesa.cpp:85-208 | the evaluation order is the graph itself; open, table and statement failures are reported in order; the rows are those of the samples before the first failed insertion; no failure exactly when all samples were inserted |
| Example.ExampleNodes | example/main.cpp:12-81 | the constructors declare the three node records, names, dependencies and factories in order |
| Example.ExampleWellFormed | example/main.cpp:98-103 | the example graph has distinct names and every dependency resolves |
| Example.ExampleOffsets | example/main.cpp:98-103 | the allocation gives slots 0-2 to the conditions, 3 to the parameters, 4 to the estimate, five in all |
| Example.ExampleInputsAndOutputs | example/main.cpp:83-91 | the pose estimation reads slots 0-3 (conditions first) and writes slot 4 |
| Example.ExampleColumns | example/main.cpp:12-81 | the table has 17 factory columns, `image_path` first, `threshold` and `position_est` last |
| Example.ExampleSchedule | example/main.cpp:98-103 | ordering the example graph keeps all three nodes and puts the pose estimation last |

## Left out

- The sqlite3 library is not modelled. Each call's result is an input: open, exec, prepare, finalize and close, plus a step result per sample. `sqlite3_reset` does not clear bindings, so the statement keeps its earlier bindings between samples. The model keeps them too, and `Storage.SaveSampleStoresRow` shows they do not matter.
- The tbb flow graph is not modelled. This covers the parallel sampler node, the limiter of 10 and its decrement edge, and the arrival order at the serial export node. The pipeline is modelled as its three bodies taking one message at a time, in sample order. Its rows are listed by sample number, which may differ from their order in the table.
- Console output and `exit(1)` are not modelled. The printed message is the run's `failure`, and `Sampler.Message` gives its text.
- The `reorderNodes` debug printing (lines 447-450) is not modelled.
- Doubles are modelled as `real`. They are only stored and bound, never computed on.
- Template payloads (`cv::Mat3b` and others) are opaque byte strings.
- User `getSample` code is the `Behaviour` parameter. It writes only the node's own outputs and cannot change a slot's dynamic type. That includes the example's cast of a double slot to a pose, which yields null and is never used.
- `Sampler.Run` requires distinct node names. With a repeated name, `offset` and `node_map` keep the last node of that name. An earlier node of the same name then reads and writes a range that can run past the value vector, which is undefined behaviour in the source (`Allocation.RepeatedNameOverrunsSlice` gives such a graph).
- `StaleSampler.StaleRun` requires distinct names and resolved dependencies. For a missing name, `node_map[...]` hands out a null node that is then dereferenced.
- `Sampler.SampleSequentially`: the C++ `int` loop counter is not modelled as 32-bit. It counts up to `num_samples`, which is itself an `int32`, so it cannot wrap.
- `Example.ExampleColumns` states the column count, the first name and the last two names, not all 17 names.

## Findings

| source | as written | input that shows it | evidently intended | confidence | as-written member | corrected member |
|---|---|---|---|---|---|---|
| src/banesa_sampler.cpp:453 | `reorderNodes` always returns true, so the "Incorrect graph!" check never fires. A node with a dangling dependency, or (with distinct names) on a cycle, is dropped from the order, and so is every node that depends on a dropped node, directly or through others. Their slots stay in the value vector and are written, at their fresh values, to every row (`Evaluation.SweepKeepsUnscheduledFresh`, `Evaluation.SamplerBody`). | one node `x` with dependency `y` and one int factory, every database call succeeding, one sequential sample: the run succeeds and stores the row `[0]` although `x` never ran | report an incorrect graph, without sampling, when some node cannot be ordered | not executed | Sampler.DanglingDependencyIsWritten | Sampler.RunChecked |

=== FILE: allocation.dfy ===
/** Run bookkeeping: where each node's slots live in the flat value vector,
    which node a name stands for, and how a node's inputs and outputs are
    gathered from the vector before its sampling function is called.
 */
module Allocation {
  import opened Values
  import opened Nodes

  /** The maps and the factory list a run builds before sampling:
      `offset[name]` (first slot of the node), `node_map[name]` and
      `value_factories` (one factory per slot). */
  datatype Allocation = Allocation(offset: map<string, nat>, nodeMap: map<string, Node>,
      factories: seq<Factory>)

  /** Every allocated name maps to a node of that name whose factories are
      exactly the factories held at its offset. */
  predicate WellFormed(a: Allocation) {
    a.offset.Keys == a.nodeMap.Keys &&
    forall name :: name in a.offset ==>
      a.nodeMap[name].name == name &&
      a.offset[name] + |a.nodeMap[name].factories| <= |a.factories| &&
      a.factories[a.offset[name]..a.offset[name] + |a.nodeMap[name].factories|] == a.nodeMap[name].factories
  }

  /** Position `i` holds the last node of `g` carrying its name, the one a
      later map assignment does not overwrite. */
  predicate IsLast(g: seq<Node>, i: nat)
    requires i < |g|
  {
    forall j :: i < j < |g| ==> g[j].name != g[i].name
  }

  /** The allocation loop over the graph in declared order: each node's
      offset is the number of factories collected before it. A repeated
      name keeps the entries of its last node. */
  function Allocate(g: seq<Node>): (a: Allocation)
    ensures a.factories == Factories(g)
    ensures a.offset.Keys == Names(g)
    ensures WellFormed(a)
    ensures OffsetsOfLastNodes(g, a)
  {
    if g == [] then Allocation(map[], map[], [])
    else
      var a := Allocate(g[..|g| - 1]);
      ExtendAllocates(g, a);
      Extend(a, g[|g| - 1])
  }

  /** The iteration for the last node of `g` turns the allocation of its
      prefix into the allocation of `g`. */
  lemma ExtendAllocates(g: seq<Node>, a: Allocation)
    requires g != []
    requires a.factories == Factories(g[..|g| - 1])
    requires a.offset.Keys == Names(g[..|g| - 1])
    requires WellFormed(a)
    requires OffsetsOfLastNodes(g[..|g| - 1], a)
    ensures Extend(a, g[|g| - 1]).factories == Factories(g)
    ensures Extend(a, g[|g| - 1]).offset.Keys == Names(g)
    ensures WellFormed(Extend(a, g[|g| - 1]))
    ensures OffsetsOfLastNodes(g, Extend(a, g[|g| - 1]))
  {
    FactoriesOfLast(g);
    ExtendKeepsWellFormed(a, g[|g| - 1]);
    ExtendKeepsOffsets(g, a);
  }

  /** For the last node of each name: it is the node the name maps to, and
      its offset is the factory count of the nodes declared before it. */
  predicate OffsetsOfLastNodes(g: seq<Node>, a: Allocation) {
    forall i :: 0 <= i < |g| && IsLast(g, i) ==> OffsetOfLast(g, a, i)
  }

  /** The last node of its name at position `i` has its entries. */
  predicate OffsetOfLast(g: seq<Node>, a: Allocation, i: nat)
    requires i < |g|
  {
    g[i].name in a.offset && g[i].name in a.nodeMap &&
    a.offset[g[i].name] == |Factories(g[..i])| && a.nodeMap[g[i].name] == g[i]
  }

  /** Appending a node to the graph adds one iteration of the loop. */
  lemma AllocateSnoc(g: seq<Node>, n: Node)
    ensures Allocate(g + [n]) == Extend(Allocate(g), n)
  {
    assert (g + [n])[..|g|] == g;
  }

  /** One iteration of the allocation loop, for node `n`. */
  function Extend(a: Allocation, n: Node): Allocation {
    Allocation(a.offset[n.name := |a.factories|], a.nodeMap[n.name := n], a.factories + n.factories)
  }

  /** An iteration keeps the slices consistent with the node map. */
  lemma ExtendKeepsWellFormed(a: Allocation, n: Node)
    requires WellFormed(a)
    ensures WellFormed(Extend(a, n))
  {
    var r := Extend(a, n);
    forall name | name in r.offset
      ensures SliceHolds(r, name)
    {
      ExtendKeepsSlice(a, n, name);
    }
  }

  /** `name`'s slice of the factories is its node's factories. */
  predicate SliceHolds(a: Allocation, name: string)
    requires name in a.offset && name in a.nodeMap
  {
    && a.nodeMap[name].name == name
    && a.offset[name] + |a.nodeMap[name].factories| <= |a.factories|
    && a.factories[a.offset[name]..a.offset[name] + |a.nodeMap[name].factories|] == a.nodeMap[name].factories
  }

  /** One name's slice after an iteration: the new node's slice is the
      appended factories, any other slice is unchanged. */
  lemma ExtendKeepsSlice(a: Allocation, n: Node, name: string)
    requires WellFormed(a)
    requires name in Extend(a, n).offset
    ensures name in Extend(a, n).nodeMap && SliceHolds(Extend(a, n), name)
  {
    if name != n.name {
      SliceOfFront(a.factories, n.factories, a.offset[name], |a.nodeMap[name].factories|);
    } else {
      SliceOfBack(a.factories, n.factories);
    }
  }

  /** A slice of the front part of a concatenation. */
  lemma SliceOfFront(xs: seq<Factory>, ys: seq<Factory>, o: nat, l: nat)
    requires o + l <= |xs|
    ensures (xs + ys)[o..o + l] == xs[o..o + l]
  {
  }

  /** The back part of a concatenation, as a slice. */
  lemma SliceOfBack(xs: seq<Factory>, ys: seq<Factory>)
    ensures (xs + ys)[|xs|..|xs| + |ys|] == ys
  {
  }

  /** An iteration for the last node of `g` extends the offsets of its
      prefix to the offsets of `g`. */
  lemma ExtendKeepsOffsets(g: seq<Node>, a: Allocation)
    requires g != []
    requires a.factories == Factories(g[..|g| - 1])
    requires OffsetsOfLastNodes(g[..|g| - 1], a)
    ensures OffsetsOfLastNodes(g, Extend(a, g[|g| - 1]))
  {
    forall i | 0 <= i < |g| && IsLast(g, i)
      ensures OffsetOfLast(g, Extend(a, g[|g| - 1]), i)
    {
      ExtendKeepsOffsetAt(g, a, i);
    }
  }

  /** One position of `ExtendKeepsOffsets`. */
  lemma ExtendKeepsOffsetAt(g: seq<Node>, a: Allocation, i: nat)
    requires g != [] && i < |g| && IsLast(g, i)
    requires a.factories == Factories(g[..|g| - 1])
    requires OffsetsOfLastNodes(g[..|g| - 1], a)
    ensures OffsetOfLast(g, Extend(a, g[|g| - 1]), i)
  {
    var init := g[..|g| - 1];
    if i < |g| - 1 {
      assert g[i] == init[i];
      assert IsLast(init, i);
      assert OffsetOfLast(init, a, i);
      assert init[..i] == g[..i];
    } else {
      assert g[..i] == init;
    }
  }

  /** With distinct names every node is the last of its name: `offset[name]`
      is the total factory count of the nodes declared before it. */
  lemma OffsetIsPrecedingFactoryCount(g: seq<Node>, i: nat)
    requires NamesDistinct(g) && i < |g|
    ensures g[i].name in Allocate(g).offset
    ensures Allocate(g).offset[g[i].name] == |Factories(g[..i])|
    ensures Allocate(g).nodeMap[g[i].name] == g[i]
  {
    assert IsLast(g, i);
  }

  /** The factories of a graph prefix grow with the prefix. */
  lemma {:induction false} PrefixFactoriesGrow(g: seq<Node>, i: nat, j: nat)
    requires i < j <= |g|
    ensures |Factories(g[..i])| + |g[i].factories| <= |Factories(g[..j])|
    decreases j - i
  {
    FactoriesSnoc(g[..i], g[i]);
    assert g[..i + 1] == g[..i] + [g[i]];
    if i + 1 < j {
      PrefixFactoriesGrow(g, i + 1, j);
    }
  }

  /** Factory counts of graph prefixes: they start at 0, grow by one
      node's factories at a time and end at the whole graph's count. */
  lemma PrefixCounts(g: seq<Node>)
    ensures |Factories(g[..0])| == 0
    ensures |Factories(g[..|g|])| == |Factories(g)|
    ensures forall i :: 0 <= i < |g| ==> |Factories(g[..i + 1])| == |Factories(g[..i])| + |g[i].factories|
    ensures forall i, j :: 0 <= i < j <= |g| ==> |Factories(g[..i])| + |g[i].factories| <= |Factories(g[..j])|
  {
    assert g[..0] == [];
    assert g[..|g|] == g;
    forall i | 0 <= i < |g|
      ensures |Factories(g[..i + 1])| == |Factories(g[..i])| + |g[i].factories|
    {
      FactoriesSnoc(g[..i], g[i]);
      assert g[..i + 1] == g[..i] + [g[i]];
    }
    forall i, j | 0 <= i < j <= |g|
      ensures |Factories(g[..i])| + |g[i].factories| <= |Factories(g[..j])|
    {
      PrefixFactoriesGrow(g, i, j);
    }
  }

  /** Node slices tile the factory list: the first starts at 0, each starts
      where the previous one ends, the last ends at the end, so slices of
      different nodes are disjoint and every slot belongs to one node. */
  lemma SlicesTile(g: seq<Node>, a: Allocation)
    requires NamesDistinct(g) && a == Allocate(g)
    ensures forall i :: 0 <= i < |g| ==> g[i].name in a.offset
    ensures |g| > 0 ==> a.offset[g[0].name] == 0
    ensures forall i :: 0 <= i < |g| - 1 ==>
      a.offset[g[i + 1].name] == a.offset[g[i].name] + |g[i].factories|
    ensures |g| > 0 ==> a.offset[g[|g| - 1].name] + |g[|g| - 1].factories| == |a.factories|
    ensures forall i, j :: 0 <= i < j < |g| ==> a.offset[g[i].name] + |g[i].factories| <= a.offset[g[j].name]
  {
    OffsetsArePrefixCounts(g, a);
    PrefixCounts(g);
  }

  /** With distinct names, each node's offset is its prefix's factory count. */
  lemma OffsetsArePrefixCounts(g: seq<Node>, a: Allocation)
    requires NamesDistinct(g) && a == Allocate(g)
    ensures forall i :: 0 <= i < |g| ==> g[i].name in a.offset && a.offset[g[i].name] == |Factories(g[..i])|
  {
    forall i | 0 <= i < |g|
      ensures g[i].name in a.offset && a.offset[g[i].name] == |Factories(g[..i])|
    {
      OffsetIsPrecedingFactoryCount(g, i);
    }
  }

  /** One fresh value per factory, in order: the run's value vector. */
  function FreshValues(fs: seq<Factory>): (r: seq<Value>)
    ensures |r| == |fs|
    ensures forall k :: 0 <= k < |fs| ==> r[k] == CreateValue(fs[k])
  {
    seq(|fs|, k requires 0 <= k < |fs| => CreateValue(fs[k]))
  }

  /** The factories of a list of values. */
  function FactoriesOf(vs: seq<Value>): (r: seq<Factory>)
    ensures |r| == |vs|
  {
    seq(|vs|, k requires 0 <= k < |vs| => vs[k].factory)
  }

  /** Values whose slots line up with the allocation's factories. */
  predicate Aligned(values: seq<Value>, a: Allocation) {
    |values| == |a.factories| && forall k :: 0 <= k < |values| ==> values[k].factory == a.factories[k]
  }

  /** The fresh value vector lines up with the factories it was made from. */
  lemma FreshValuesAligned(a: Allocation)
    ensures Aligned(FreshValues(a.factories), a)
    ensures forall k :: 0 <= k < |a.factories| ==> WellTyped(FreshValues(a.factories)[k])
  {
  }

  /** The `offset[d]` and `node_map[d]` lookups hit for every `d` of
      `deps`, and each slice they describe lies inside a vector of `size`
      values. */
  predicate DepsFit(a: Allocation, deps: seq<string>, size: nat) {
    forall d :: d in deps ==>
      d in a.offset && d in a.nodeMap && a.offset[d] + |a.nodeMap[d].factories| <= size
  }

  /** Every lookup made while gathering `n`'s inputs and outputs hits, and
      every copied range lies inside a vector of `size` values. */
  predicate Resolvable(a: Allocation, n: Node, size: nat) {
    n.name in a.offset && a.offset[n.name] + |n.factories| <= size && DepsFit(a, n.deps, size)
  }

  /** The factories of the dependency nodes, in dependency order. */
  function DependencyFactories(a: Allocation, deps: seq<string>): seq<Factory>
    requires forall d :: d in deps ==> d in a.nodeMap
  {
    if deps == [] then [] else a.nodeMap[deps[0]].factories + DependencyFactories(a, deps[1..])
  }

  /** The range of `d`'s slots, copied out of the value vector. */
  function DependencySlice(values: seq<Value>, a: Allocation, d: string): seq<Value>
    requires d in a.offset && d in a.nodeMap && a.offset[d] + |a.nodeMap[d].factories| <= |values|
  {
    values[a.offset[d]..a.offset[d] + |a.nodeMap[d].factories|]
  }

  /** Gathered inputs: each dependency's whole slot range, one after the
      other, in declaration order. */
  function GatherInputs(values: seq<Value>, a: Allocation, deps: seq<string>): (r: seq<Value>)
    requires DepsFit(a, deps, |values|)
    ensures |r| == |DependencyFactories(a, deps)|
  {
    if deps == [] then [] else DependencySlice(values, a, deps[0]) + GatherInputs(values, a, deps[1..])
  }

  /** Gathered outputs: the node's own slot range. */
  function GatherOutputs(values: seq<Value>, a: Allocation, n: Node): (r: seq<Value>)
    requires n.name in a.offset && a.offset[n.name] + |n.factories| <= |values|
    ensures |r| == |n.factories|
    ensures forall k :: 0 <= k < |r| ==> r[k] == values[a.offset[n.name] + k]
  {
    values[a.offset[n.name]..a.offset[n.name] + |n.factories|]
  }

  /** Over an aligned value vector the inputs of a node are values of
      exactly its dependencies' factories, in dependency order. */
  lemma {:induction false} InputsAreDependencySlots(values: seq<Value>, a: Allocation, deps: seq<string>)
    requires WellFormed(a) && Aligned(values, a)
    requires DepsFit(a, deps, |values|)
    ensures FactoriesOf(GatherInputs(values, a, deps)) == DependencyFactories(a, deps)
  {
    if deps != [] {
      InputsAreDependencySlots(values, a, deps[1..]);
      var d := deps[0];
      var s := DependencySlice(values, a, d);
      assert FactoriesOf(s) == a.nodeMap[d].factories by {
        forall k | 0 <= k < |s| ensures s[k].factory == a.nodeMap[d].factories[k] {
          assert s[k] == values[a.offset[d] + k];
          assert a.factories[a.offset[d]..a.offset[d] + |a.nodeMap[d].factories|][k]
              == a.factories[a.offset[d] + k];
        }
      }
      var rest := GatherInputs(values, a, deps[1..]);
      assert FactoriesOf(s + rest) == FactoriesOf(s) + FactoriesOf(rest);
    }
  }

  /** Over an aligned value vector the outputs of a node are values of
      exactly its own factories, in declaration order. */
  lemma OutputsAreOwnSlots(values: seq<Value>, a: Allocation, n: Node)
    requires WellFormed(a) && Aligned(values, a)
    requires n.name in a.nodeMap && a.nodeMap[n.name] == n
    ensures n.name in a.offset && a.offset[n.name] + |n.factories| <= |values|
    ensures FactoriesOf(GatherOutputs(values, a, n)) == n.factories
  {
    var o := a.offset[n.name];
    forall k | 0 <= k < |n.factories| ensures values[o + k].factory == n.factories[k] {
      assert a.factories[o..o + |n.factories|][k] == a.factories[o + k];
    }
  }

  /** The lookups of a run never miss, whatever the names: in a schedule
      whose nodes are graph nodes and follow their dependencies, every node
      name and every dependency is allocated, and each dependency's slice
      lies inside the value vector. */
  lemma ScheduledLookupsHit(g: seq<Node>, order: seq<Node>)
    requires forall n :: n in order ==> n in g
    requires forall i, d :: 0 <= i < |order| && d in order[i].deps ==> d in Names(order[..i])
    ensures forall n :: n in order ==>
      n.name in Allocate(g).offset && DepsFit(Allocate(g), n.deps, |Factories(g)|)
  {
    var a := Allocate(g);
    forall n | n in order
      ensures n.name in a.offset && DepsFit(a, n.deps, |Factories(g)|)
    {
      NamesSubset([n], g);
      forall d | d in n.deps
        ensures d in a.offset && d in a.nodeMap && a.offset[d] + |a.nodeMap[d].factories| <= |Factories(g)|
      {
        var p :| 0 <= p < |order| && order[p] == n;
        assert order[..p] <= order;
        NamesSubset(order[..p], g);
      }
    }
  }

  /** With distinct names a scheduled node also owns its slice: its name
      maps back to it, and its own outputs lie inside the value vector.
      `RepeatedNameOverrunsSlice` shows why the premise is needed. */
  lemma ScheduledNodesResolve(g: seq<Node>, order: seq<Node>)
    requires NamesDistinct(g)
    requires forall n :: n in order ==> n in g
    requires forall i, d :: 0 <= i < |order| && d in order[i].deps ==> d in Names(order[..i])
    ensures Schedulable(Allocate(g), order)
    ensures forall n :: n in order ==> n.name in Allocate(g).nodeMap && Allocate(g).nodeMap[n.name] == n
  {
    var a := Allocate(g);
    ScheduledLookupsHit(g, order);
    forall n | n in order
      ensures Resolvable(a, n, |Factories(g)|) && n.name in a.nodeMap && a.nodeMap[n.name] == n
    {
      var i :| 0 <= i < |g| && g[i] == n;
      OffsetIsPrecedingFactoryCount(g, i);
    }
  }

  /** With a repeated name the earlier node's own outputs run past the
      vector: the name's offset is that of the later, smaller node. */
  lemma RepeatedNameOverrunsSlice(f: Factory)
    ensures var g := [Node("x", [], [f, f]), Node("x", [], [f])];
      Allocate(g).offset["x"] + |g[0].factories| > |Factories(g)|
  {
  }

  /** Every node of `order` can be evaluated against the allocation's value
      vector without a missed lookup or an out-of-range copy. */
  predicate Schedulable(a: Allocation, order: seq<Node>) {
    forall n :: n in order ==> Resolvable(a, n, |a.factories|)
  }

  /** In a graph with distinct names whose dependencies all resolve, every
      node can be evaluated, in any order. */
  lemma GraphNodesResolve(g: seq<Node>)
    requires NamesDistinct(g) && Resolved(g)
    ensures Schedulable(Allocate(g), g)
  {
    var a := Allocate(g);
    forall n | n in g ensures Resolvable(a, n, |a.factories|) {
      var i :| 0 <= i < |g| && g[i] == n;
      OffsetIsPrecedingFactoryCount(g, i);
    }
  }
}

=== FILE: evaluation.dfy ===
/** Computing one sample: each scheduled node's sampling function is called
    on the values of its dependencies and writes its own output slots.

    A node's `getSample` is user code. It is a parameter here: given the
    sample number (standing for whatever per-sample state, such as a random
    engine, the user code keeps), the node, its gathered inputs and its
    current outputs, it proposes new contents for the outputs. An output
    keeps its factory; a proposed content of another dynamic type than the
    slot's is not applied, as the C++ object behind the slot cannot change
    its type.
 */
module Evaluation {
  import opened Values
  import opened Nodes
  import opened Allocation

  type Behaviour = (int, Node, seq<Value>, seq<Value>) -> seq<Cell>

  /** Contents of the same dynamic type fit the same factory. */
  lemma SameKindFits(f: Factory, a: Cell, b: Cell)
    requires CellFits(f, a) && SameKind(a, b)
    ensures CellFits(f, b)
  {
  }

  /** Write the proposed contents into the output values. */
  function Overwrite(outputs: seq<Value>, cells: seq<Cell>): (r: seq<Value>)
    ensures |r| == |outputs|
    ensures forall k :: 0 <= k < |r| ==> r[k].factory == outputs[k].factory
    ensures forall k :: 0 <= k < |r| && WellTyped(outputs[k]) ==> WellTyped(r[k])
  {
    seq(|outputs|, k requires 0 <= k < |outputs| =>
      if k < |cells| && SameKind(outputs[k].cell, cells[k])
      then outputs[k].(cell := cells[k])
      else outputs[k])
  }

  /** Slot `k` is one of `n`'s own output slots. */
  predicate InSlice(a: Allocation, n: Node, k: int) {
    n.name in a.offset && a.offset[n.name] <= k < a.offset[n.name] + |n.factories|
  }

  /** Slot `k` belongs to none of the nodes of `order`. */
  predicate Unscheduled(a: Allocation, order: seq<Node>, k: int) {
    forall n :: n in order ==> !InSlice(a, n, k)
  }

  /** One node's step: gather its inputs and outputs, call its sampling
      function, store what it wrote. Only the node's own slots change. */
  function EvaluateNode(values: seq<Value>, a: Allocation, n: Node, behaviour: Behaviour,
      sample: int): (r: seq<Value>)
    requires Resolvable(a, n, |values|)
    ensures |r| == |values|
    ensures forall k :: 0 <= k < |r| ==> r[k].factory == values[k].factory
    ensures forall k :: 0 <= k < |r| && WellTyped(values[k]) ==> WellTyped(r[k])
    ensures forall k :: 0 <= k < |r| && !InSlice(a, n, k) ==> r[k] == values[k]
  {
    var o := a.offset[n.name];
    var outputs := GatherOutputs(values, a, n);
    var cells := behaviour(sample, n, GatherInputs(values, a, n.deps), outputs);
    var written := Overwrite(outputs, cells);
    SpliceKeepsKinds(values, o, written);
    values[..o] + written + values[o + |n.factories|..]
  }

  /** Writing a range back into the vector changes only that range, and
      keeps each slot's factory and well-typedness when the new values
      keep those of the values they replace. */
  lemma SpliceKeepsKinds(values: seq<Value>, o: nat, written: seq<Value>)
    requires o + |written| <= |values|
    requires forall j :: 0 <= j < |written| ==> written[j].factory == values[o + j].factory
    requires forall j :: 0 <= j < |written| && WellTyped(values[o + j]) ==> WellTyped(written[j])
    ensures |values[..o] + written + values[o + |written|..]| == |values|
    ensures forall k :: 0 <= k < |values| ==>
              (values[..o] + written + values[o + |written|..])[k]
                == if o <= k < o + |written| then written[k - o] else values[k]
  {
  }

  /** The nodes of `order`, one after the other. Slots of no scheduled
      node keep their contents. */
  function EvaluateNodes(values: seq<Value>, a: Allocation, order: seq<Node>, behaviour: Behaviour,
      sample: int)
    : (r: seq<Value>)
    requires forall n :: n in order ==> Resolvable(a, n, |values|)
    ensures |r| == |values|
    ensures forall k :: 0 <= k < |r| ==> r[k].factory == values[k].factory
    ensures forall k :: 0 <= k < |r| && WellTyped(values[k]) ==> WellTyped(r[k])
    ensures forall k :: 0 <= k < |r| && Unscheduled(a, order, k) ==> r[k] == values[k]
    decreases |order|
  {
    if order == [] then values
    else
      var next := EvaluateNode(values, a, order[0], behaviour, sample);
      assert forall n :: n in order[1..] ==> n in order;
      EvaluateNodes(next, a, order[1..], behaviour, sample)
  }

  /** The sequential run's value vector after `count` samples: created once
      from the factories, then updated in place sample after sample. */
  function Sweep(a: Allocation, order: seq<Node>, behaviour: Behaviour, count: nat): (r: seq<Value>)
    requires Schedulable(a, order)
    ensures Aligned(r, a)
    ensures forall k :: 0 <= k < |r| ==> WellTyped(r[k])
  {
    if count == 0 then
      FreshValuesAligned(a);
      FreshValues(a.factories)
    else
      EvaluateNodes(Sweep(a, order, behaviour, count - 1), a, order, behaviour, count - 1)
  }

  /** A slot that belongs to no scheduled node keeps its fresh value in the
      sequential vector after any number of samples: the values it is
      stored with, row after row, are those `createValue` made. */
  lemma {:induction false} SweepKeepsUnscheduledFresh(a: Allocation, order: seq<Node>, behaviour: Behaviour,
                                                      count: nat, k: nat)
    requires Schedulable(a, order) && k < |a.factories| && Unscheduled(a, order, k)
    ensures Sweep(a, order, behaviour, count)[k] == CreateValue(a.factories[k])
  {
    if count > 0 {
      SweepKeepsUnscheduledFresh(a, order, behaviour, count - 1, k);
    }
  }

  /** `ValueTable`: one sample's values and its number. */
  datatype ValueTable = ValueTable(values: seq<Value>, sample: int)

  /** `SamplerBody`: a fresh value per factory for every sample, then every
      scheduled node in order. A slot no scheduled node owns keeps its
      fresh value; nothing carries over from earlier samples. */
  function SamplerBody(a: Allocation, order: seq<Node>, behaviour: Behaviour, sample: int): (t: ValueTable)
    requires Schedulable(a, order)
    ensures t.sample == sample
    ensures Aligned(t.values, a)
    ensures forall k :: 0 <= k < |t.values| ==> WellTyped(t.values[k])
    ensures forall k :: 0 <= k < |t.values| && Unscheduled(a, order, k) ==>
              t.values[k] == CreateValue(a.factories[k])
  {
    FreshValuesAligned(a);
    ValueTable(EvaluateNodes(FreshValues(a.factories), a, order, behaviour, sample), sample)
  }

  /** The first sequential sample computes what the per-sample body
      computes for sample 0; later samples may differ, since the sequential
      run keeps its values from one sample to the next. */
  lemma FirstSampleAgrees(a: Allocation, order: seq<Node>, behaviour: Behaviour)
    requires Schedulable(a, order)
    ensures SamplerBody(a, order, behaviour, 0).values == Sweep(a, order, behaviour, 1)
  {
  }
}

=== FILE: example.dfy ===
/** The three-node graph of the example program: experimental conditions
    (an image file and two poses), algorithm parameters (a threshold) and
    a pose estimation that depends on both and outputs one double.
 */
module Example {
  import opened Values
  import opened Nodes
  import opened Scheduler
  import opened Schema
  import opened Allocation

  const ExperimentalConditions: Node :=
    Node("experimental_conditions", [],
         [FileFactory("image"), SE3Factory("camera_to_world"), SE3Factory("object_to_world")])

  const AlgorithmParameters: Node :=
    Node("algorithm_parameters", [], [PrimitiveFactory("threshold", DoubleKind)])

  const PoseEstimation: Node :=
    Node("pose_estimation", ["experimental_conditions", "algorithm_parameters"],
         [PrimitiveFactory("position_est", DoubleKind)])

  const ExampleGraph: seq<Node> := [ExperimentalConditions, AlgorithmParameters, PoseEstimation]

  /** The node constructors of the example declare exactly these records:
      name first, then dependencies, then factories. */
  lemma ExampleNodes()
    ensures Declare("experimental_conditions", [],
                    [FileFactory("image"), SE3Factory("camera_to_world"), SE3Factory("object_to_world")])
            == ExperimentalConditions
    ensures Declare("algorithm_parameters", [], [PrimitiveFactory("threshold", DoubleKind)])
        == AlgorithmParameters
    ensures Declare("pose_estimation", ["experimental_conditions", "algorithm_parameters"],
                    [PrimitiveFactory("position_est", DoubleKind)])
            == PoseEstimation
  {
    DeclaredNodeReportsDeclaration("experimental_conditions", [],
      [FileFactory("image"), SE3Factory("camera_to_world"), SE3Factory("object_to_world")]);
    DeclaredNodeReportsDeclaration("algorithm_parameters", [], [PrimitiveFactory("threshold", DoubleKind)]);
    DeclaredNodeReportsDeclaration("pose_estimation", ["experimental_conditions", "algorithm_parameters"],
      [PrimitiveFactory("position_est", DoubleKind)]);
  }

  /** The example graph's names are distinct and all its dependencies
      resolve. */
  lemma ExampleWellFormed()
    ensures Names(ExampleGraph) == {"experimental_conditions", "algorithm_parameters", "pose_estimation"}
    ensures NamesDistinct(ExampleGraph) && Resolved(ExampleGraph)
  {
    NamesSnoc([], ExperimentalConditions);
    assert [] + [ExperimentalConditions] == [ExperimentalConditions];
    NamesSnoc([ExperimentalConditions], AlgorithmParameters);
    assert [ExperimentalConditions] + [AlgorithmParameters] == [ExperimentalConditions, AlgorithmParameters];
    NamesSnoc([ExperimentalConditions, AlgorithmParameters], PoseEstimation);
    assert [ExperimentalConditions, AlgorithmParameters] + [PoseEstimation] == ExampleGraph;
  }

  /** The example's slot layout: slots 0-2 belong to the experimental
      conditions, 3 to the parameters, 4 to the pose estimation, and each
      name maps back to its node. */
  predicate ExampleLayout(a: Allocation) {
    && a.offset.Keys == {"experimental_conditions", "algorithm_parameters", "pose_estimation"}
    && a.offset["experimental_conditions"] == 0
    && a.offset["algorithm_parameters"] == 3
    && a.offset["pose_estimation"] == 4
    && "experimental_conditions" in a.nodeMap
    && a.nodeMap["experimental_conditions"] == ExperimentalConditions
    && "algorithm_parameters" in a.nodeMap && a.nodeMap["algorithm_parameters"] == AlgorithmParameters
    && "pose_estimation" in a.nodeMap && a.nodeMap["pose_estimation"] == PoseEstimation
    && |a.factories| == 5
  }

  /** The allocation loop's three iterations over the example graph. */
  lemma ExampleAllocationSteps()
    ensures Allocate(ExampleGraph) ==
      Extend(Extend(Extend(Allocation(map[], map[], []), ExperimentalConditions), AlgorithmParameters),
          PoseEstimation)
  {
    FirstTwoSteps();
    AllocateSnoc([ExperimentalConditions, AlgorithmParameters], PoseEstimation);
    assert [ExperimentalConditions, AlgorithmParameters] + [PoseEstimation] == ExampleGraph;
  }

  /** The first two iterations. */
  lemma FirstTwoSteps()
    ensures Allocate([ExperimentalConditions, AlgorithmParameters]) ==
      Extend(Extend(Allocation(map[], map[], []), ExperimentalConditions), AlgorithmParameters)
  {
    AllocateSnoc([], ExperimentalConditions);
    assert [] + [ExperimentalConditions] == [ExperimentalConditions];
    AllocateSnoc([ExperimentalConditions], AlgorithmParameters);
    assert [ExperimentalConditions] + [AlgorithmParameters] == [ExperimentalConditions, AlgorithmParameters];
  }

  /** Allocating the example graph gives the layout above: five values in
      all. */
  lemma ExampleOffsets()
    ensures ExampleLayout(Allocate(ExampleGraph))
  {
    ExampleAllocationSteps();
    StepsLayout();
  }

  /** The three iterations build the layout. */
  lemma StepsLayout()
    ensures ExampleLayout(
      Extend(Extend(Extend(Allocation(map[], map[], []), ExperimentalConditions), AlgorithmParameters),
          PoseEstimation))
  {
  }

  /** Under that layout the pose estimation reads the four values of its
      two dependencies, conditions first, and writes its own one value. */
  lemma ExampleInputsAndOutputs(values: seq<Value>, a: Allocation)
    requires ExampleLayout(a) && |values| == 5
    ensures DepsFit(a, PoseEstimation.deps, |values|)
    ensures GatherInputs(values, a, PoseEstimation.deps) == values[0..4]
    ensures GatherOutputs(values, a, PoseEstimation) == values[4..5]
  {
    var deps := PoseEstimation.deps;
    assert DepsFit(a, deps, |values|);
    assert deps[1..][1..] == [];
    calc {
      GatherInputs(values, a, deps);
      DependencySlice(values, a, deps[0]) + GatherInputs(values, a, deps[1..]);
      values[0..3] + (DependencySlice(values, a, deps[1..][0]) + GatherInputs(values, a, deps[1..][1..]));
      values[0..3] + (values[3..4] + []);
      values[0..4];
    }
  }

  /** The example graph's factories, node after node. */
  lemma ExampleFactories()
    ensures Factories(ExampleGraph) ==
      [ FileFactory("image"), SE3Factory("camera_to_world"), SE3Factory("object_to_world"),
        PrimitiveFactory("threshold", DoubleKind), PrimitiveFactory("position_est", DoubleKind) ]
  {
    FactoriesSnoc([], ExperimentalConditions);
    assert [] + [ExperimentalConditions] == [ExperimentalConditions];
    FactoriesSnoc([ExperimentalConditions], AlgorithmParameters);
    assert [ExperimentalConditions] + [AlgorithmParameters] == [ExperimentalConditions, AlgorithmParameters];
    FactoriesSnoc([ExperimentalConditions, AlgorithmParameters], PoseEstimation);
    assert [ExperimentalConditions, AlgorithmParameters] + [PoseEstimation] == ExampleGraph;
  }

  /** The table has seventeen factory columns after the primary key: the
      image path first, seven per pose, then the threshold and the
      estimate. */
  lemma ExampleColumns()
    ensures |ColumnsOf(Factories(ExampleGraph))| == 17
    ensures ColumnsOf(Factories(ExampleGraph))[0] == "image_path"
    ensures ColumnsOf(Factories(ExampleGraph))[15] == "threshold"
    ensures ColumnsOf(Factories(ExampleGraph))[16] == "position_est"
  {
    ExampleFactories();
    var head := [FileFactory("image"), SE3Factory("camera_to_world"), SE3Factory("object_to_world")];
    var tail := [PrimitiveFactory("threshold", DoubleKind), PrimitiveFactory("position_est", DoubleKind)];
    assert Factories(ExampleGraph) == head + tail;
    ColumnsOfAppend(head, tail);
    assert head[1..][1..][1..] == [] && tail[1..][1..] == [];
    assert ColumnsOf(tail) == ["threshold", "position_est"];
    assert ColumnsOf(head)[0] == "image" + "_path";
  }

  /** A rank that orders the example's dependencies. */
  lemma ExampleAcyclic()
    ensures Acyclic(ExampleGraph)
  {
    var rank := (name: string) => if name == "pose_estimation" then 1 else 0;
    assert RankedBy(ExampleGraph, rank);
  }

  /** In any valid schedule of the whole example graph the pose estimation
      comes last, after both of its dependencies. */
  lemma PoseEstimationLast(ordered: seq<Node>)
    requires ValidSchedule(ExampleGraph, ordered)
    requires |ordered| == 3 && PoseEstimation in ordered
    ensures ordered[2] == PoseEstimation
  {
    var i :| 0 <= i < |ordered| && ordered[i] == PoseEstimation;
    assert "experimental_conditions" in Names(ordered[..i]) && "algorithm_parameters" in Names(ordered[..i]);
    NamesAtMost(ordered[..i]);
    assert {"experimental_conditions", "algorithm_parameters"} <= Names(ordered[..i]);
    assert |{"experimental_conditions", "algorithm_parameters"}| == 2;
  }

  /** `reorderNodes` orders the whole example graph and puts the pose
      estimation last. */
  method ExampleSchedule() returns (ordered: seq<Node>)
    ensures |ordered| == 3 && multiset(ordered) == multiset(ExampleGraph)
    ensures ordered[2] == PoseEstimation
  {
    ExampleWellFormed();
    ExampleAcyclic();
    var ok;
    ordered, ok := ReorderNodes(ExampleGraph);
    assert PoseEstimation in multiset(ordered);
    PoseEstimationLast(ordered);
  }
}

=== FILE: nodes.dfy ===
/** Graph nodes: a name, the names of the nodes it depends on, and the
    factories of its own output slots, both lists in declaration order.
    A node's computation (`getSample`) is not part of the record; the
    sampler takes it as a parameter.
 */
module Nodes {
  import opened Values

  datatype Node = Node(name: string, deps: seq<string>, factories: seq<Factory>)

  /** A node as its default constructor leaves it. */
  function NewNode(): (n: Node)
    ensures |n.deps| == 0 && |n.factories| == 0
  {
    Node("", [], [])
  }

  /** `setName`: the name becomes `name`; nothing else changes. */
  function SetName(n: Node, name: string): (r: Node)
    ensures r.name == name
    ensures r.deps == n.deps && r.factories == n.factories
  {
    n.(name := name)
  }

  /** `registerDependency`: append one dependency name. */
  function RegisterDependency(n: Node, dep: string): (r: Node)
    ensures r.name == n.name && r.factories == n.factories
    ensures |r.deps| == |n.deps| + 1 && r.deps[..|n.deps|] == n.deps && r.deps[|n.deps|] == dep
  {
    n.(deps := n.deps + [dep])
  }

  /** `registerValueFactory`: append one output factory. */
  function RegisterValueFactory(n: Node, f: Factory): (r: Node)
    ensures r.name == n.name && r.deps == n.deps
    ensures |r.factories| == |n.factories| + 1 && r.factories[..|n.factories|] == n.factories
    ensures r.factories[|n.factories|] == f
  {
    n.(factories := n.factories + [f])
  }

  /** Register each of `deps`, first to last. */
  function RegisterDependencies(n: Node, deps: seq<string>): Node
    decreases |deps|
  {
    if deps == [] then n else RegisterDependencies(RegisterDependency(n, deps[0]), deps[1..])
  }

  /** Register each of `fs`, first to last. */
  function RegisterValueFactories(n: Node, fs: seq<Factory>): Node
    decreases |fs|
  {
    if fs == [] then n else RegisterValueFactories(RegisterValueFactory(n, fs[0]), fs[1..])
  }

  /** Dependencies are kept in registration order, after those already held. */
  lemma {:induction false} DependenciesInRegistrationOrder(n: Node, deps: seq<string>)
    ensures RegisterDependencies(n, deps).deps == n.deps + deps
    ensures RegisterDependencies(n, deps).name == n.name
    ensures RegisterDependencies(n, deps).factories == n.factories
    decreases |deps|
  {
    if deps != [] {
      var n' := RegisterDependency(n, deps[0]);
      DependenciesInRegistrationOrder(n', deps[1..]);
      assert n'.deps + deps[1..] == n.deps + deps;
    }
  }

  /** Factories are kept in registration order, after those already held. */
  lemma {:induction false} FactoriesInRegistrationOrder(n: Node, fs: seq<Factory>)
    ensures RegisterValueFactories(n, fs).factories == n.factories + fs
    ensures RegisterValueFactories(n, fs).name == n.name
    ensures RegisterValueFactories(n, fs).deps == n.deps
    decreases |fs|
  {
    if fs != [] {
      var n' := RegisterValueFactory(n, fs[0]);
      FactoriesInRegistrationOrder(n', fs[1..]);
      assert n'.factories + fs[1..] == n.factories + fs;
    }
  }

  /** How a concrete node's constructor declares it: name, then
      dependencies, then factories, starting from a fresh node. */
  function Declare(name: string, deps: seq<string>, fs: seq<Factory>): Node {
    RegisterValueFactories(RegisterDependencies(SetName(NewNode(), name), deps), fs)
  }

  /** A declared node reports exactly what was declared, in order. */
  lemma DeclaredNodeReportsDeclaration(name: string, deps: seq<string>, fs: seq<Factory>)
    ensures Declare(name, deps, fs) == Node(name, deps, fs)
  {
    var n := SetName(NewNode(), name);
    DependenciesInRegistrationOrder(n, deps);
    FactoriesInRegistrationOrder(RegisterDependencies(n, deps), fs);
  }

  /** The names of a list of nodes. */
  function Names(g: seq<Node>): set<string> {
    if g == [] then {} else Names(g[..|g| - 1]) + {g[|g| - 1].name}
  }

  /** Every node's name is among the names. */
  lemma {:induction false} NameOf(g: seq<Node>, n: Node)
    requires n in g
    ensures n.name in Names(g)
  {
    if g[|g| - 1] != n {
      assert g == g[..|g| - 1] + [g[|g| - 1]];
      NameOf(g[..|g| - 1], n);
    }
  }

  /** Every name among the names belongs to a node, at some position. */
  lemma {:induction false} NodeNamed(g: seq<Node>, d: string) returns (i: nat)
    requires d in Names(g)
    ensures i < |g| && g[i].name == d
  {
    if g[|g| - 1].name == d {
      i := |g| - 1;
    } else {
      i := NodeNamed(g[..|g| - 1], d);
    }
  }

  /** The names of a sub-collection are among the names of the whole. */
  lemma NamesSubset(a: seq<Node>, g: seq<Node>)
    requires forall n :: n in a ==> n in g
    ensures Names(a) <= Names(g)
  {
    forall d | d in Names(a) ensures d in Names(g) {
      var i := NodeNamed(a, d);
      NameOf(g, a[i]);
    }
  }

  /** Names of a list extended at the end. */
  lemma NamesSnoc(g: seq<Node>, n: Node)
    ensures Names(g + [n]) == Names(g) + {n.name}
  {
    assert (g + [n])[..|g|] == g;
  }

  /** No two positions hold nodes with the same name. */
  predicate NamesDistinct(g: seq<Node>) {
    forall i, j :: 0 <= i < j < |g| ==> g[i].name != g[j].name
  }

  /** Every dependency name is the name of a node of the graph. */
  predicate Resolved(g: seq<Node>) {
    forall n, d :: n in g && d in n.deps ==> d in Names(g)
  }

  /** All factories of a graph, node by node, each node's in declaration
      order: the run's `value_factories`. */
  function Factories(g: seq<Node>): seq<Factory> {
    if g == [] then [] else g[0].factories + Factories(g[1..])
  }

  /** Adding a node at the end adds its factories at the end. */
  lemma {:induction false} FactoriesSnoc(g: seq<Node>, n: Node)
    ensures Factories(g + [n]) == Factories(g) + n.factories
  {
    if g == [] {
      assert g + [n] == [n];
      assert Factories([n]) == n.factories + Factories([]);
    } else {
      assert (g + [n])[1..] == g[1..] + [n];
      FactoriesSnoc(g[1..], n);
    }
  }

  /** A graph's factories are those of all nodes but the last, then the last's. */
  lemma FactoriesOfLast(g: seq<Node>)
    requires g != []
    ensures Factories(g) == Factories(g[..|g| - 1]) + g[|g| - 1].factories
  {
    FactoriesSnoc(g[..|g| - 1], g[|g| - 1]);
    assert g[..|g| - 1] + [g[|g| - 1]] == g;
  }

  /** A graph's factories split at any node boundary. */
  lemma {:induction false} FactoriesSplit(g: seq<Node>, i: nat)
    requires i <= |g|
    ensures Factories(g) == Factories(g[..i]) + Factories(g[i..])
    decreases i
  {
    if i > 0 {
      FactoriesSplit(g[1..], i - 1);
      assert g[1..][..i - 1] == g[..i][1..];
      assert g[1..][i - 1..] == g[i..];
    } else {
      assert g[..0] == [];
      assert g[0..] == g;
    }
  }

  /** Distinct names means as many names as nodes. */
  lemma {:induction false} NamesCount(g: seq<Node>)
    requires NamesDistinct(g)
    ensures |Names(g)| == |g|
  {
    if g != [] {
      var last := g[|g| - 1];
      var init := g[..|g| - 1];
      NamesCount(init);
      if last.name in Names(init) {
        var i := NodeNamed(init, last.name);
      }
    }
  }
}

=== FILE: sampler.dfy ===
/** `Sampler::run`: set the database up, allocate the value slots, order
    the nodes, draw the samples and store one row per sample, then release
    the database. The first failing phase decides the error message and no
    later phase runs.

    The database is an oracle: whether opening, executing the schema query,
    preparing the insertion statement, each insertion step, finalising and
    closing succeed. Steps are numbered by sample.
 */
module Sampler {
  import opened Values
  import opened Wrappers
  import opened Nodes
  import opened Scheduler
  import opened Schema
  import opened Allocation
  import opened Evaluation
  import opened Storage
  import opened Source

  /** The phase that stopped a run. */
  datatype Failure =
    | InitializeFailed
    | PrepareFailed
    | IncorrectGraph
    | InsertFailed
    | FinalizeFailed
    | CloseFailed

  /** The message printed before exiting. */
  function Message(f: Failure): string {
    match f
    case InitializeFailed => "Could not initialize database!"
    case PrepareFailed => "Could not create insertion statement!"
    case IncorrectGraph => "Incorrect graph!"
    case InsertFailed => "Could not insert sample to database!"
    case FinalizeFailed => "Could not release insertion statement!"
    case CloseFailed => "Could not close database!"
  }

  /** Each failure has a message of its own. */
  lemma MessagesIdentifyFailures(f: Failure, g: Failure)
    requires Message(f) == Message(g)
    ensures f == g
  {
  }

  /** What the database answers to each call of a run. */
  datatype Database = Database(
    openOk: bool,
    execOk: bool,
    prepareOk: bool,
    stepOk: int -> bool,
    finalizeOk: bool,
    closeOk: bool)

  /** The database is open and holds the `samples` table. */
  predicate Initialized(db: Database) {
    db.openOk && db.execOk
  }

  /** ... and the insertion statement is prepared. */
  predicate Prepared(db: Database) {
    Initialized(db) && db.prepareOk
  }

  /** What a run leaves behind: its failure if any, the schema query and
      insertion statement it issued (empty when not reached), the node
      order it sampled in, and the rows it inserted, in insertion order. */
  datatype Outcome<F> = Outcome(failure: Option<F>, query: string, insertSql: string,
                                order: seq<Node>, rows: seq<seq<Param>>)

  /** `initializeDatabase`: build the schema query, open the database and
      execute the query. */
  method InitializeDatabase(graph: seq<Node>, db: Database) returns (query: string, ok: bool)
    ensures query == CreateTableSql([IdColumn] + ColumnsOf(Factories(graph)),
        [IdType] + TypesOf(Factories(graph)))
    ensures ok <==> Initialized(db)
  {
    var names, types := SchemaColumns(graph);
    query := TableQuery(names, types);
    ok := true;
    if ok {
      ok := db.openOk;
    }
    if ok {
      ok := db.execOk;
    }
  }

  /** `createInsertionStatement`: build the insertion statement for the
      factories and prepare it. */
  method CreateInsertionStatement(factories: seq<Factory>, db: Database)
    returns (sql: string, fieldCount: nat, ok: bool)
    ensures sql == InsertSql(ColumnsOf(factories))
    ensures fieldCount == |ColumnsOf(factories)|
    ensures ok <==> db.prepareOk
  {
    sql, fieldCount := InsertionStatement(factories);
    ok := db.prepareOk;
  }

  /** Zero for a negative sample count. */
  function SampleCount(numSamples: int32): nat {
    if numSamples < 0 then 0 else numSamples as nat
  }

  /** The rows of the first `count` samples of a sequential run: after
      sample `j`, the fields of the run's value vector. */
  function SweepRows(a: Allocation, order: seq<Node>, behaviour: Behaviour,
      count: nat): (rows: seq<seq<Param>>)
    requires Schedulable(a, order)
    ensures |rows| == count
  {
    if count == 0 then []
    else SweepRows(a, order, behaviour, count - 1) + [Row(Sweep(a, order, behaviour, count))]
  }

  /** Row `j` of a sequential run is the vector after `j + 1` samples. */
  lemma {:induction false} SweepRowsAt(a: Allocation, order: seq<Node>, behaviour: Behaviour, count: nat)
    requires Schedulable(a, order)
    ensures forall j :: 0 <= j < count ==>
      SweepRows(a, order, behaviour, count)[j] == Row(Sweep(a, order, behaviour, j + 1))
  {
    if count > 0 {
      SweepRowsAt(a, order, behaviour, count - 1);
      var prev := SweepRows(a, order, behaviour, count - 1);
      assert SweepRows(a, order, behaviour, count) == prev + [Row(Sweep(a, order, behaviour, count))];
    }
  }

  /** How many of the first `n` insertions succeed before the first one
      that fails: the number of rows of a sequential run of `n` samples. */
  function SuccessfulPrefix(stepOk: int -> bool, n: nat): (k: nat)
    ensures k <= n
  {
    if n == 0 then 0
    else
      var k := SuccessfulPrefix(stepOk, n - 1);
      if k == n - 1 && stepOk(n - 1) then n else k
  }

  /** The successful prefix is what its name says: every insertion in it
      succeeds, and the one right after it, if any, fails. */
  lemma {:induction false} SuccessfulPrefixStopsAtFirstFailure(stepOk: int -> bool, n: nat)
    ensures forall j :: 0 <= j < SuccessfulPrefix(stepOk, n) ==> stepOk(j)
    ensures SuccessfulPrefix(stepOk, n) < n ==> !stepOk(SuccessfulPrefix(stepOk, n))
  {
    if n > 0 {
      SuccessfulPrefixStopsAtFirstFailure(stepOk, n - 1);
    }
  }

  /** Once an insertion has failed, later samples add no rows. */
  lemma {:induction false} SuccessfulPrefixStays(stepOk: int -> bool, m: nat, n: nat)
    requires m <= n
    requires SuccessfulPrefix(stepOk, m) < m
    ensures SuccessfulPrefix(stepOk, n) == SuccessfulPrefix(stepOk, m)
    decreases n
  {
    if n > m {
      SuccessfulPrefixStays(stepOk, m, n - 1);
    }
  }

  /** The sequential branch of `run`: one value vector for the whole run,
      updated sample after sample, bound and inserted after each sample.
      Sampling stops at the first failed insertion; the rows inserted are
      those of the samples before it. */
  method SampleSequentially(a: Allocation, order: seq<Node>, behaviour: Behaviour, numSamples: int32,
                            stepOk: int -> bool, fieldCount: nat, stmt: Statement)
    returns (rows: seq<seq<Param>>, ok: bool)
    requires Schedulable(a, order)
    requires fieldCount == |ColumnsOf(a.factories)|
    ensures |rows| == SuccessfulPrefix(stepOk, SampleCount(numSamples))
    ensures ok <==> |rows| == SampleCount(numSamples)
    ensures rows == SweepRows(a, order, behaviour, |rows|)
  {
    var values := FreshValues(a.factories);
    var insert := stmt;
    var n := SampleCount(numSamples);
    rows, ok := [], true;
    var i := 0;
    while ok && i < n
      invariant i <= n
      invariant values == Sweep(a, order, behaviour, i)
      invariant |rows| == SuccessfulPrefix(stepOk, i)
      invariant ok <==> |rows| == i
      invariant rows == SweepRows(a, order, behaviour, |rows|)
    {
      var row;
      values, insert, row := NextSample(a, order, behaviour, i, values, insert, fieldCount);
      ok := stepOk(i);
      if ok {
        rows := RecordRow(a, order, behaviour, rows, row);
      }
      i := i + 1;
    }
    if !ok {
      SuccessfulPrefixStays(stepOk, i, n);
    }
  }

  /** Record the row of the next sample: the rows stay those of the
      samples drawn so far. */
  method RecordRow(a: Allocation, order: seq<Node>, behaviour: Behaviour, rows: seq<seq<Param>>,
      row: seq<Param>)
    returns (rows': seq<seq<Param>>)
    requires Schedulable(a, order)
    requires rows == SweepRows(a, order, behaviour, |rows|)
    requires row == Row(Sweep(a, order, behaviour, |rows| + 1))
    ensures |rows'| == |rows| + 1
    ensures rows' == SweepRows(a, order, behaviour, |rows'|)
  {
    rows' := rows + [row];
  }

  /** One iteration of the sequential loop: evaluate the scheduled nodes on
      the run's value vector, then bind the vector into the statement. The
      row the step would insert is the fields of the updated vector. */
  method NextSample(a: Allocation, order: seq<Node>, behaviour: Behaviour, i: nat,
                    values: seq<Value>, insert: Statement, fieldCount: nat)
    returns (values': seq<Value>, insert': Statement, row: seq<Param>)
    requires Schedulable(a, order)
    requires fieldCount == |ColumnsOf(a.factories)|
    requires values == Sweep(a, order, behaviour, i)
    ensures values' == Sweep(a, order, behaviour, i + 1)
    ensures row == Row(values')
  {
    values' := EvaluateNodes(values, a, order, behaviour, i);
    var bound := SaveSample(insert, values');
    SaveSampleStoresRow(insert, values', a);
    insert' := bound.0;
    row := Inserted(insert', fieldCount);
  }

  /** The rows a pipeline run inserts for samples `0` to `count - 1`: the
      fields of each sample's fresh table, for the samples whose insertion
      succeeds. A failed insertion is reported and skipped. */
  function PipelineRows(a: Allocation, order: seq<Node>, behaviour: Behaviour, stepOk: int -> bool,
      count: nat)
    : (rows: seq<seq<Param>>)
    requires Schedulable(a, order)
    ensures |rows| <= count
  {
    if count == 0 then []
    else
      PipelineRows(a, order, behaviour, stepOk, count - 1)
      + (if stepOk(count - 1) then [Row(SamplerBody(a, order, behaviour, count - 1).values)] else [])
  }

  /** When every insertion succeeds, the pipeline inserts one row per
      sample, row `j` being sample `j`'s fresh table after evaluation. */
  lemma {:induction false} PipelineRowsAllSucceed(a: Allocation, order: seq<Node>, behaviour: Behaviour,
                                                  stepOk: int -> bool, count: nat)
    requires Schedulable(a, order)
    requires forall j :: 0 <= j < count ==> stepOk(j)
    ensures |PipelineRows(a, order, behaviour, stepOk, count)| == count
    ensures forall j :: 0 <= j < count ==>
      PipelineRows(a, order, behaviour, stepOk, count)[j] == Row(SamplerBody(a, order, behaviour, j).values)
  {
    if count > 0 {
      var prev := PipelineRows(a, order, behaviour, stepOk, count - 1);
      var last := Row(SamplerBody(a, order, behaviour, count - 1).values);
      PipelineRowsAllSucceed(a, order, behaviour, stepOk, count - 1);
      assert PipelineRows(a, order, behaviour, stepOk, count) == prev + [last];
    }
  }

  /** The multithreaded branch of `run`, with its stages taken one message
      at a time: the source emits sample numbers until it is exhausted, the
      sampler body computes each sample's table, and the export body binds
      and inserts it, ignoring a failed insertion. */
  method SampleInPipeline(a: Allocation, order: seq<Node>, behaviour: Behaviour, numSamples: int32,
                          stepOk: int -> bool, fieldCount: nat, stmt: Statement)
    returns (rows: seq<seq<Param>>)
    requires Schedulable(a, order)
    requires fieldCount == |ColumnsOf(a.factories)|
    ensures rows == PipelineRows(a, order, behaviour, stepOk, SampleCount(numSamples))
  {
    var source := NewSource(numSamples);
    var insert := stmt;
    rows := [];
    while true
      invariant source.numSamples == numSamples
      invariant 0 <= source.nextSample as int <= SampleCount(numSamples)
      invariant rows == PipelineRows(a, order, behaviour, stepOk, source.nextSample as nat)
      decreases SampleCount(numSamples) - source.nextSample as int
    {
      var pulled := Pull(source);
      if pulled.1.None? {
        break;
      }
      var sample := pulled.1.value;
      source := pulled.0;
      var row;
      insert, row := ExportSample(a, order, behaviour, sample as int, insert, fieldCount);
      if stepOk(sample as int) {
        rows := rows + [row];
      }
    }
  }

  /** One message through the sampler and export bodies: compute the
      sample's fresh table and bind it into the shared statement. The row
      the step would insert is the fields of that table. */
  method ExportSample(a: Allocation, order: seq<Node>, behaviour: Behaviour, sample: int,
                      insert: Statement, fieldCount: nat)
    returns (insert': Statement, row: seq<Param>)
    requires Schedulable(a, order)
    requires fieldCount == |ColumnsOf(a.factories)|
    ensures row == Row(SamplerBody(a, order, behaviour, sample).values)
  {
    var table := SamplerBody(a, order, behaviour, sample);
    var bound := SaveSample(insert, table.values);
    SaveSampleStoresRow(insert, table.values, a);
    insert' := bound.0;
    row := Inserted(insert', fieldCount);
  }

  /** What a run reports about its set-up phases: the schema query of the
      graph's factories; a failure to open the database or create the
      table; otherwise the insertion statement of the same columns less
      `id`, and a failure to prepare it. Before the statement is prepared,
      no node is ordered and no row is inserted. */
  predicate SetupReported(graph: seq<Node>, db: Database, out: Outcome<Failure>) {
    && out.query == CreateTableSql([IdColumn] + ColumnsOf(Factories(graph)),
        [IdType] + TypesOf(Factories(graph)))
    && (out.failure == Some(InitializeFailed) <==> !Initialized(db))
    && (Initialized(db) ==> out.insertSql == InsertSql(ColumnsOf(Factories(graph))))
    && (out.failure == Some(PrepareFailed) <==> Initialized(db) && !db.prepareOk)
    && (!Prepared(db) ==> out.order == [] && out.rows == [])
  }

  /** Every sample was drawn: always in the pipeline, which ignores failed
      insertions; in the sequential loop, when no insertion failed. */
  predicate SampledAll(numSamples: int32, multithread: bool, out: Outcome<Failure>) {
    multithread || |out.rows| == SampleCount(numSamples)
  }

  /** What a run reports once it samples in `out.order`: the rows of the
      pipeline or of the sequential loop, which stops at the first failed
      insertion; then a failure to finalise the statement or to close the
      database, or no failure at all. */
  predicate SamplingReported(graph: seq<Node>, numSamples: int32, multithread: bool, db: Database,
                             behaviour: Behaviour, out: Outcome<Failure>) {
    var a := Allocate(graph);
    && Schedulable(a, out.order)
    && (multithread ==> out.rows == PipelineRows(a, out.order, behaviour, db.stepOk, SampleCount(numSamples)))
    && (!multithread ==> out.rows == SweepRows(a, out.order, behaviour, |out.rows|))
    && (!multithread ==> |out.rows| == SuccessfulPrefix(db.stepOk, SampleCount(numSamples)))
    && (out.failure == Some(InsertFailed) <==> !SampledAll(numSamples, multithread, out))
    && (out.failure == Some(FinalizeFailed) <==> SampledAll(numSamples, multithread, out) && !db.finalizeOk)
    && (out.failure == Some(CloseFailed) <==>
          SampledAll(numSamples, multithread, out) && db.finalizeOk && !db.closeOk)
    && (out.failure == None <==> SampledAll(numSamples, multithread, out) && db.finalizeOk && db.closeOk)
  }

  /** The set-up phases of `run`: initialise the database, allocate the
      factories in graph order, create the insertion statement. `err` is the
      message of the last phase attempted, reported only when `ok` fails. */
  method Setup(graph: seq<Node>, db: Database)
    returns (query: string, sql: string, fieldCount: nat, ok: bool, err: Failure)
    ensures query == CreateTableSql([IdColumn] + ColumnsOf(Factories(graph)),
        [IdType] + TypesOf(Factories(graph)))
    ensures ok <==> Prepared(db)
    ensures !ok ==> err == if Initialized(db) then PrepareFailed else InitializeFailed
    ensures Initialized(db) ==> sql == InsertSql(ColumnsOf(Factories(graph)))
    ensures Initialized(db) ==> fieldCount == |ColumnsOf(Allocate(graph).factories)|
  {
    sql, fieldCount := "", 0;
    query, ok := InitializeDatabase(graph, db);
    err := InitializeFailed;
    var a := Allocate(graph);
    if ok {
      sql, fieldCount, ok := CreateInsertionStatement(a.factories, db);
      err := PrepareFailed;
    }
  }

  /** The sampling and release phases of `run`, once the nodes are
      ordered: sample in the pipeline or sequentially, then finalise the
      statement and close the database. Only the failure and the rows
      change. */
  method SampleAndRelease(graph: seq<Node>, numSamples: int32, multithread: bool, db: Database,
                          behaviour: Behaviour, fieldCount: nat, started: Outcome<Failure>)
    returns (out: Outcome<Failure>)
    requires NamesDistinct(graph) && ValidSchedule(graph, started.order)
    requires fieldCount == |ColumnsOf(Allocate(graph).factories)|
    ensures out.query == started.query && out.insertSql == started.insertSql && out.order == started.order
    ensures SamplingReported(graph, numSamples, multithread, db, behaviour, out)
  {
    ScheduledNodesResolve(graph, started.order);
    var a := Allocate(graph);
    var ok := true;
    var err := InsertFailed;
    var rows: seq<seq<Param>>;
    if multithread {
      rows := SampleInPipeline(a, started.order, behaviour, numSamples, db.stepOk, fieldCount, map[]);
    } else {
      rows, ok := SampleSequentially(a, started.order, behaviour, numSamples, db.stepOk, fieldCount, map[]);
      err := InsertFailed;
    }
    if ok {
      ok := db.finalizeOk;
      err := FinalizeFailed;
    }
    if ok {
      ok := db.closeOk;
      err := CloseFailed;
    }
    out := started.(failure := if ok then None else Some(err), rows := rows);
  }

  /** `run` as written: `reorderNodes` always accepts, so "Incorrect graph!"
      is never reported. A node on a cycle or with a dependency outside the
      graph is left out of the order, and so is every node that depends on
      a left-out node, directly or through others. Their slots, at their
      fresh values, are still written to every row. A node is ordered
      exactly when its dependencies all are (`Closed`). */
  method Run(graph: seq<Node>, numSamples: int32, multithread: bool, db: Database, behaviour: Behaviour)
    returns (out: Outcome<Failure>)
    requires NamesDistinct(graph)
    ensures SetupReported(graph, db, out)
    ensures out.failure != Some(IncorrectGraph)
    ensures ValidSchedule(graph, out.order)
    ensures Prepared(db) ==> Closed(graph, out.order)
    ensures Prepared(db) ==> SamplingReported(graph, numSamples, multithread, db, behaviour, out)
    ensures Prepared(db) && Resolved(graph) && Acyclic(graph) ==> multiset(out.order) == multiset(graph)
  {
    var query, sql, fieldCount, ok, err := Setup(graph, db);
    out := Outcome(if ok then None else Some(err), query, sql, [], []);
    if ok {
      var ordered, accepted := ReorderNodes(graph);
      out := out.(failure := if accepted then None else Some(IncorrectGraph), order := ordered);
      if accepted {
        out := SampleAndRelease(graph, numSamples, multithread, db, behaviour, fieldCount, out);
      }
    }
  }

  /** `run` with the graph check `reorderNodes` evidently intends: a graph
      whose names are not distinct, whose dependencies do not all name
      graph nodes, or which has a dependency cycle is reported as an
      incorrect graph before any sample is drawn. A graph that passes is
      ordered completely. */
  method RunChecked(graph: seq<Node>, numSamples: int32, multithread: bool, db: Database,
      behaviour: Behaviour)
    returns (out: Outcome<Failure>)
    ensures SetupReported(graph, db, out)
    ensures ValidSchedule(graph, out.order)
    ensures out.failure == Some(IncorrectGraph) <==>
              Prepared(db) && !(NamesDistinct(graph) && Resolved(graph) && Acyclic(graph))
    ensures out.failure == Some(IncorrectGraph) ==> out.rows == []
    ensures Prepared(db) && NamesDistinct(graph) && Resolved(graph) && Acyclic(graph) ==>
              && multiset(out.order) == multiset(graph)
              && SamplingReported(graph, numSamples, multithread, db, behaviour, out)
  {
    var query, sql, fieldCount, ok, err := Setup(graph, db);
    out := Outcome(if ok then None else Some(err), query, sql, [], []);
    if ok {
      var ordered, accepted := ReorderNodesChecked(graph);
      out := out.(failure := if accepted then None else Some(IncorrectGraph), order := ordered);
      if accepted {
        out := SampleAndRelease(graph, numSamples, multithread, db, behaviour, fieldCount, out);
      }
    }
  }

  /** The one-node instance of `SweepKeepsUnscheduledFresh`: with no node
      evaluated, the one sample of a one-node graph is the node's fresh
      values. */
  lemma UnevaluatedSlotIsFresh(x: Node, behaviour: Behaviour)
    requires x.factories == [PrimitiveFactory("v", IntKind)]
    ensures SweepRows(Allocate([x]), [], behaviour, 1) == [[IntParam(0)]]
  {
    assert Factories([x]) == x.factories by {
      assert [x][1..] == [];
    }
    var a := Allocate([x]);
    assert Sweep(a, [], behaviour, 1) == [CreateValue(PrimitiveFactory("v", IntKind))];
    assert Row([CreateValue(PrimitiveFactory("v", IntKind))]) == [IntParam(0)];
  }

  /** A node whose dependency names no graph node, alone in its graph, with
      a database where every call succeeds and one sample. As written, the
      run succeeds and stores one row, but the node was never evaluated:
      the row holds its slot's fresh value 0, not the 1 it would have
      written. With the graph check, the run stops as an incorrect graph
      and stores nothing. */
  method DanglingDependencyIsWritten() returns (asWritten: Outcome<Failure>, corrected: Outcome<Failure>)
    ensures asWritten.failure == None && asWritten.order == []
    ensures asWritten.rows == [[IntParam(0)]]
    ensures corrected.failure == Some(IncorrectGraph) && corrected.rows == []
  {
    var x := Node("x", ["y"], [PrimitiveFactory("v", IntKind)]);
    var db := Database(true, true, true, j => true, true, true);
    var behaviour: Behaviour := (sample, n, inputs, outputs) => [IntCell(1)];
    assert Names([x]) == {"x"} by {
      assert [x][..0] == [];
    }
    asWritten := Run([x], 1, false, db, behaviour);
    DanglingNodeIsDropped([x], asWritten.order, x, "y");
    UnevaluatedSlotIsFresh(x, behaviour);
    corrected := RunChecked([x], 1, false, db, behaviour);
  }
}

=== FILE: scheduler.dfy ===
/** Evaluation order of a graph (`Sampler::reorderNodes`).

    Every node without dependencies is a root. Roots are taken in graph
    order; from each, a depth-first traversal with an explicit stack visits
    children, and a child is output the first time all of its dependency
    names have been output. The procedure always reports success: a node on
    a dependency cycle or with a dependency that names no node is never
    output, and nothing says so.
 */
module Scheduler {
  import opened Values
  import opened Nodes
  import opened Seqs

  /** `children[parent]` once the children map is built: every node that
      declares `parent`, in graph order, once per declaration. */
  function ChildrenOf(g: seq<Node>, parent: string): (r: seq<Node>)
    ensures forall c :: c in r <==> c in g && parent in c.deps
  {
    if g == [] then []
    else
      var here := seq(Count(g[0].deps, parent), _ => g[0]);
      assert forall c :: c in here <==> c == g[0] && parent in g[0].deps by {
        if parent in g[0].deps { assert here[0] == g[0]; }
      }
      here + ChildrenOf(g[1..], parent)
  }

  /** Every name in `deps` is in `s`. */
  predicate AllIn(deps: seq<string>, s: set<string>) {
    forall d :: d in deps ==> d in s
  }

  /** Each node of `order` comes after nodes carrying all its dependency names. */
  predicate TopologicallyOrdered(order: seq<Node>) {
    forall i, d :: 0 <= i < |order| && d in order[i].deps ==> d in Names(order[..i])
  }

  /** What `reorderNodes` promises of its output: graph nodes, no name twice,
      dependencies first. */
  predicate ValidSchedule(g: seq<Node>, order: seq<Node>) {
    && (forall n :: n in order ==> n in g)
    && NamesDistinct(order)
    && TopologicallyOrdered(order)
  }

  /** A rank that strictly grows from each dependency to its dependent. */
  ghost predicate RankedBy(g: seq<Node>, rank: string -> nat) {
    forall n, d :: n in g && d in n.deps ==> rank(d) < rank(n.name)
  }

  /** The dependency relation has no cycle: some rank orders it. */
  ghost predicate Acyclic(g: seq<Node>) {
    exists rank: string -> nat :: RankedBy(g, rank)
  }

  /** A cycle of dependencies: each node depends on the next one's name,
      and the last on the first's. */
  ghost predicate DependencyCycle(g: seq<Node>, cycle: seq<Node>) {
    && |cycle| > 0
    && (forall c :: c in cycle ==> c in g)
    && forall i :: 0 <= i < |cycle| ==> cycle[(i + 1) % |cycle|].name in cycle[i].deps
  }

  /** Loop invariant of the traversal: a node with dependencies whose
      dependency names are all finished (popped from the stack) has been
      processed. */
  ghost predicate Settled(g: seq<Node>, processed: set<string>, done: set<string>) {
    forall c :: c in g && |c.deps| > 0 && AllIn(c.deps, done) ==> c.name in processed
  }

  /** The loop that decides whether all dependencies of a child are available. */
  method AllDependenciesAvailable(deps: seq<string>, processed: set<string>) returns (available: bool)
    ensures available <==> AllIn(deps, processed)
  {
    available := true;
    for i := 0 to |deps|
      invariant available <==> AllIn(deps[..i], processed)
    {
      assert deps[..i + 1] == deps[..i] + [deps[i]];
      available := available && deps[i] in processed;
    }
    assert deps[..|deps|] == deps;
  }

  /** Appending a node whose dependencies are all present keeps the order
      topological and adds its name. */
  lemma AppendKeepsOrder(order: seq<Node>, c: Node)
    requires TopologicallyOrdered(order)
    requires NamesDistinct(order)
    requires AllIn(c.deps, Names(order))
    requires c.name !in Names(order)
    ensures TopologicallyOrdered(order + [c])
    ensures NamesDistinct(order + [c])
    ensures Names(order + [c]) == Names(order) + {c.name}
  {
    var o := order + [c];
    forall i, d | 0 <= i < |o| && d in o[i].deps
      ensures d in Names(o[..i])
    {
      if i < |order| {
        assert o[..i] == order[..i];
      } else {
        assert o[..i] == order;
      }
    }
    forall i, j | 0 <= i < j < |o|
      ensures o[i].name != o[j].name
    {
      if j == |order| {
        NameOf(order, o[i]);
      }
    }
    NamesSnoc(order, c);
  }

  /** Nothing the traversal could admit is missing from `order`: every graph
      node whose dependency names all occur in `order` occurs there itself,
      roots included. On a graph with a cycle or a dangling dependency this
      says that only the nodes that cannot be ordered are left out. */
  predicate Closed(g: seq<Node>, order: seq<Node>) {
    forall n :: n in g && AllIn(n.deps, Names(order)) ==> n.name in Names(order)
  }

  /** `reorderNodes`: output every root (a node without dependencies) not yet
      processed, in graph order, then walk down from it with a stack,
      admitting a child once all its dependency names are processed. It
      always reports success. The output is a valid schedule, and for a
      graph with distinct names, resolved dependencies and no cycle it is
      a permutation of the graph. */
  method ReorderNodes(graph: seq<Node>) returns (ordered: seq<Node>, ok: bool)
    ensures ok
    ensures ValidSchedule(graph, ordered)
    ensures Closed(graph, ordered)
    ensures NamesDistinct(graph) && Resolved(graph) && Acyclic(graph) ==>
              |ordered| == |graph| && multiset(ordered) == multiset(graph)
  {
    var processed: set<string> := {};
    ordered := [];
    forall c | c in graph && |c.deps| > 0 ensures !AllIn(c.deps, processed) {
      assert c.deps[0] in c.deps;
    }

    for r := 0 to |graph|
      invariant processed == Names(ordered)
      invariant ValidSchedule(graph, ordered)
      invariant Settled(graph, processed, processed)
      invariant forall j :: 0 <= j < r && |graph[j].deps| == 0 ==> graph[j].name in processed
    {
      var root := graph[r];
      if root.name !in processed && |root.deps| == 0 {
        ordered, processed := TraverseFrom(graph, root, ordered, processed);
      }
    }

    forall n | n in graph && AllIn(n.deps, processed) ensures n.name in processed {
      if |n.deps| == 0 {
        var j :| 0 <= j < |graph| && graph[j] == n;
      }
    }

    if NamesDistinct(graph) && Resolved(graph) && Acyclic(graph) {
      var rank :| RankedBy(graph, rank);
      forall n | n in graph ensures n.name in processed {
        ProcessedByRank(graph, processed, rank, n);
      }
      ScheduleCoversGraph(graph, ordered);
      SameNodesSameMultiset(graph, ordered);
    }
    ok := true;
  }

  /** A node list with distinct names holds each node once. */
  lemma {:induction false} OccursOnce(s: seq<Node>, x: Node)
    requires NamesDistinct(s)
    ensures multiset(s)[x] == if x in s then 1 else 0
  {
    if s != [] {
      var init := s[..|s| - 1];
      assert s == init + [s[|s| - 1]];
      OccursOnce(init, x);
    }
  }

  /** Two node lists with distinct names and the same nodes are
      permutations of each other. */
  lemma SameNodesSameMultiset(g: seq<Node>, order: seq<Node>)
    requires NamesDistinct(g) && NamesDistinct(order)
    requires forall n :: n in order ==> n in g
    requires forall n :: n in g ==> n in order
    ensures multiset(order) == multiset(g)
  {
    forall x ensures multiset(order)[x] == multiset(g)[x] {
      OccursOnce(g, x);
      OccursOnce(order, x);
    }
  }

  /** Output a root, then run the stack traversal from it until the stack
      is empty. */
  method TraverseFrom(graph: seq<Node>, root: Node, ordered: seq<Node>, processed: set<string>)
    returns (ordered': seq<Node>, processed': set<string>)
    requires root in graph && root.name !in processed && |root.deps| == 0
    requires processed == Names(ordered)
    requires ValidSchedule(graph, ordered)
    requires Settled(graph, processed, processed)
    ensures processed' == Names(ordered')
    ensures ValidSchedule(graph, ordered')
    ensures Settled(graph, processed', processed')
    ensures processed + {root.name} <= processed'
  {
    ghost var done := processed;
    AppendKeepsOrder(ordered, root);
    SettledMonotone(graph, processed, processed + {root.name}, done);
    var stack := [root];
    ordered' := ordered + [root];
    processed' := processed + {root.name};

    while |stack| > 0
      invariant Scanning(graph, ordered', processed', stack, done, done)
      invariant processed + {root.name} <= processed'
      decreases |Names(graph) - processed'|, |stack|
    {
      var node := stack[|stack| - 1];
      assert stack == stack[..|stack| - 1] + [node];
      NamesSnoc(stack[..|stack| - 1], node);
      stack := stack[..|stack| - 1];
      done := done + {node.name};
      ghost var before := processed';
      ordered', processed', stack := VisitChildren(graph, node, ordered', processed', stack, done);
      if processed' != before {
        ShrinkingRemainder(Names(graph), before, processed');
      }
    }
  }

  /** The state of the traversal while a popped node's children are
      scanned: the output holds exactly the processed names, which are the
      popped names and those on the stack; it is a valid schedule; nodes
      whose dependencies are all `finished` are processed. */
  ghost predicate Scanning(graph: seq<Node>, ordered: seq<Node>, processed: set<string>, stack: seq<Node>,
                           done: set<string>, finished: set<string>) {
    && processed == Names(ordered) == done + Names(stack)
    && ValidSchedule(graph, ordered)
    && Settled(graph, processed, finished)
  }

  /** One pop of the traversal: scan the children of the popped `node` and
      push, output and mark each child whose dependencies are all processed.
      `done` holds the names already popped, `node`'s included. */
  method VisitChildren(graph: seq<Node>, node: Node, ordered: seq<Node>, processed: set<string>,
                       stack: seq<Node>, ghost done: set<string>)
    returns (ordered': seq<Node>, processed': set<string>, stack': seq<Node>)
    requires node.name in done
    requires Scanning(graph, ordered, processed, stack, done, done - {node.name})
    ensures Scanning(graph, ordered', processed', stack', done, done)
    ensures processed <= processed' <= Names(graph)
    ensures processed' == processed ==> stack' == stack
  {
    ordered', processed', stack' := ordered, processed, stack;
    NamesSubset(ordered, graph);
    var children := ChildrenOf(graph, node.name);
    for k := 0 to |children|
      invariant Scanning(graph, ordered', processed', stack', done, done - {node.name})
      invariant Seen(children, k, processed', done)
      invariant processed <= processed' <= Names(graph)
      invariant processed' == processed ==> stack' == stack
    {
      var before := processed';
      ordered', processed', stack' :=
        VisitChild(graph, children[k], ordered', processed', stack', done, done - {node.name});
      SeenStep(children, k, before, processed', done);
    }
    SettledAfterPop(graph, processed', done, node.name, children);
  }

  /** The first `k` children have been checked: each is processed or has a
      dependency that has not been popped. */
  predicate Seen(children: seq<Node>, k: nat, processed: set<string>, done: set<string>)
    requires k <= |children|
  {
    forall j :: 0 <= j < k ==> children[j].name in processed || !AllIn(children[j].deps, done)
  }

  /** Checking one more child extends `Seen`; processing only grows. */
  lemma SeenStep(children: seq<Node>, k: nat, processed: set<string>, processed': set<string>,
                 done: set<string>)
    requires k < |children| && Seen(children, k, processed, done) && processed <= processed'
    requires children[k].name in processed' || !AllIn(children[k].deps, done)
    ensures Seen(children, k + 1, processed', done)
  {
  }

  /** One child of a popped node: output it if it is new and all its
      dependencies are processed. */
  method VisitChild(graph: seq<Node>, child: Node, ordered: seq<Node>, processed: set<string>,
                    stack: seq<Node>, ghost done: set<string>, ghost finished: set<string>)
    returns (ordered': seq<Node>, processed': set<string>, stack': seq<Node>)
    requires child in graph
    requires Scanning(graph, ordered, processed, stack, done, finished)
    requires processed <= Names(graph)
    ensures Scanning(graph, ordered', processed', stack', done, finished)
    ensures processed <= processed' <= Names(graph)
    ensures processed' == processed ==> stack' == stack
    ensures child.name in processed' || !AllIn(child.deps, done)
  {
    ordered', processed', stack' := ordered, processed, stack;
    NameOf(graph, child);
    if child.name !in processed {
      var available := AllDependenciesAvailable(child.deps, processed);
      if available {
        AppendKeepsOrder(ordered, child);
        assert Names(stack + [child]) == Names(stack) + {child.name};
        stack' := stack + [child];
        ordered' := ordered + [child];
        processed' := processed + {child.name};
        SettledMonotone(graph, processed, processed', finished);
      }
    }
  }

  /** After a popped node's children have all been checked, the finished
      set may include that node. */
  lemma SettledAfterPop(g: seq<Node>, processed: set<string>, done: set<string>, popped: string,
      children: seq<Node>)
    requires popped in done
    requires children == ChildrenOf(g, popped)
    requires Settled(g, processed, done - {popped})
    requires forall j :: 0 <= j < |children| ==>
               children[j].name in processed || !AllIn(children[j].deps, done)
    ensures Settled(g, processed, done)
  {
    forall c | c in g && |c.deps| > 0 && AllIn(c.deps, done)
      ensures c.name in processed
    {
      if popped in c.deps {
        assert c in children;
      } else {
        assert AllIn(c.deps, done - {popped});
      }
    }
  }

  /** Growing a subset of a finite universe shrinks what is left of it. */
  lemma ShrinkingRemainder(universe: set<string>, a: set<string>, b: set<string>)
    requires a <= b <= universe && a != b
    ensures |universe - b| < |universe - a|
  {
    var x :| x in b && x !in a;
    SubsetCount(universe - b, (universe - a) - {x});
  }

  /** A subset has no more elements than its superset. */
  lemma {:induction false} SubsetCount(a: set<string>, b: set<string>)
    requires a <= b
    ensures |a| <= |b|
    decreases |a|
  {
    if a != {} {
      var x :| x in a;
      SubsetCount(a - {x}, b - {x});
    }
  }

  /** Processing more nodes keeps the traversal settled. */
  lemma SettledMonotone(g: seq<Node>, processed: set<string>, more: set<string>, done: set<string>)
    requires Settled(g, processed, done) && processed <= more
    ensures Settled(g, more, done)
  {
  }

  /** With the traversal settled and every root processed, every node
      reached by a ranked, resolved dependency chain has been processed. */
  lemma {:induction false} ProcessedByRank(g: seq<Node>, processed: set<string>, rank: string -> nat, n: Node)
    requires Resolved(g) && RankedBy(g, rank)
    requires Settled(g, processed, processed)
    requires forall j :: 0 <= j < |g| && |g[j].deps| == 0 ==> g[j].name in processed
    requires n in g
    ensures n.name in processed
    decreases rank(n.name)
  {
    if |n.deps| == 0 {
      var j :| 0 <= j < |g| && g[j] == n;
    } else {
      forall d | d in n.deps ensures d in processed {
        var i := NodeNamed(g, d);
        ProcessedByRank(g, processed, rank, g[i]);
      }
    }
  }

  /** A schedule that outputs every name of a graph with distinct names is
      the whole graph. */
  lemma ScheduleCoversGraph(g: seq<Node>, order: seq<Node>)
    requires NamesDistinct(g) && ValidSchedule(g, order)
    requires forall n :: n in g ==> n.name in Names(order)
    ensures |order| == |g|
    ensures forall n :: n in g ==> n in order
  {
    forall n | n in g ensures n in order {
      var i := NodeNamed(order, n.name);
      SameNameSameNode(g, order[i], n);
    }
    NamesSubset(order, g);
    NamesSubset(g, order);
    assert Names(order) == Names(g);
    NamesCount(g);
    NamesCount(order);
  }

  /** In a graph with distinct names, a name identifies its node. */
  lemma SameNameSameNode(g: seq<Node>, m: Node, n: Node)
    requires NamesDistinct(g) && m in g && n in g && m.name == n.name
    ensures m == n
  {
    var i :| 0 <= i < |g| && g[i] == m;
    var j :| 0 <= j < |g| && g[j] == n;
  }

  /** A schedule missing one node of a graph with distinct names is shorter
      than the graph. */
  lemma MissingNodeShortens(g: seq<Node>, order: seq<Node>, n: Node)
    requires NamesDistinct(g) && ValidSchedule(g, order)
    requires n in g && n !in order
    ensures |order| < |g|
  {
    assert Names(order) <= Names(g) - {n.name} by {
      NamesSubset(order, g);
      if n.name in Names(order) {
        var i := NodeNamed(order, n.name);
        SameNameSameNode(g, order[i], n);
      }
    }
    NamesCount(g);
    NamesCount(order);
    NameOf(g, n);
    SubsetCount(Names(order), Names(g) - {n.name});
  }

  /** A node with a dependency that names no node of the graph is never
      scheduled, so the schedule is shorter than the graph. */
  lemma DanglingNodeIsDropped(g: seq<Node>, order: seq<Node>, n: Node, d: string)
    requires ValidSchedule(g, order)
    requires n in g && d in n.deps && d !in Names(g)
    ensures n !in order
    ensures NamesDistinct(g) ==> |order| < |g|
  {
    forall i | 0 <= i < |order| ensures order[i] != n {
      if order[i] == n {
        var i' := EarlierProvider(order, i, d);
        NameOf(g, order[i']);
      }
    }
    if NamesDistinct(g) {
      MissingNodeShortens(g, order, n);
    }
  }

  /** Dropping propagates: a node with a dependency missing from a valid
      schedule is missing too, so every node that depends, directly or
      through other nodes, on a dropped node is dropped as well. */
  lemma DependentOfDroppedIsDropped(g: seq<Node>, order: seq<Node>, n: Node, d: string)
    requires ValidSchedule(g, order)
    requires d in n.deps && d !in Names(order)
    ensures n !in order
  {
    forall i | 0 <= i < |order| ensures order[i] != n {
      if order[i] == n {
        var i' := EarlierProvider(order, i, d);
        NameOf(order, order[i']);
      }
    }
  }

  /** A chain behind a dangling dependency: `b` depends on the missing `z`
      and `a` on `b`. Neither is on a cycle and `a`'s dependency names a
      graph node, yet no valid schedule holds either of them. */
  lemma ChainBehindDanglingIsDropped(order: seq<Node>)
    requires ValidSchedule([Node("b", ["z"], []), Node("a", ["b"], [])], order)
    ensures Node("b", ["z"], []) !in order && Node("a", ["b"], []) !in order
  {
    var b, a := Node("b", ["z"], []), Node("a", ["b"], []);
    var g := [b, a];
    forall i | 0 <= i < |order| ensures order[i].name != "z" {
      assert order[i] in g;
    }
    if "z" in Names(order) {
      var i := NodeNamed(order, "z");
      assert false;
    }
    DependentOfDroppedIsDropped(g, order, b, "z");
    forall i | 0 <= i < |order| ensures order[i].name != "b" {
      assert order[i] in g;
    }
    if "b" in Names(order) {
      var i := NodeNamed(order, "b");
      assert false;
    }
    DependentOfDroppedIsDropped(g, order, a, "b");
  }

  /** The position of the node that provides dependency `d` of `order[i]`. */
  lemma EarlierProvider(order: seq<Node>, i: nat, d: string) returns (i': nat)
    requires TopologicallyOrdered(order)
    requires i < |order| && d in order[i].deps
    ensures i' < i && order[i'].name == d
  {
    i' := NodeNamed(order[..i], d);
  }

  /** Every node of a cycle depends on a next node of the cycle. */
  lemma CycleSuccessor(g: seq<Node>, cycle: seq<Node>, c: Node) returns (next: Node)
    requires DependencyCycle(g, cycle) && c in cycle
    ensures next in cycle && next in g && next.name in c.deps
  {
    var j :| 0 <= j < |cycle| && cycle[j] == c;
    next := cycle[(j + 1) % |cycle|];
  }

  /** No node of a dependency cycle is at any position of a schedule. */
  lemma {:induction false} CycleAbsentAt(g: seq<Node>, order: seq<Node>, cycle: seq<Node>, i: nat)
    requires NamesDistinct(g) && ValidSchedule(g, order) && DependencyCycle(g, cycle)
    requires i < |order|
    ensures order[i] !in cycle
    decreases i
  {
    if order[i] in cycle {
      var next := CycleSuccessor(g, cycle, order[i]);
      var i' := EarlierProvider(order, i, next.name);
      assert order[i'] in g;
      SameNameSameNode(g, order[i'], next);
      CycleAbsentAt(g, order, cycle, i');
      assert false;
    }
  }

  /** The nodes of a dependency cycle are never scheduled, so the schedule
      is shorter than the graph. */
  lemma CycleIsDropped(g: seq<Node>, order: seq<Node>, cycle: seq<Node>)
    requires NamesDistinct(g) && ValidSchedule(g, order) && DependencyCycle(g, cycle)
    ensures forall c :: c in cycle ==> c !in order
    ensures |order| < |g|
  {
    forall c | c in cycle ensures c !in order {
      if c in order {
        var i :| 0 <= i < |order| && order[i] == c;
        CycleAbsentAt(g, order, cycle, i);
      }
    }
    MissingNodeShortens(g, order, cycle[0]);
  }

  /** Without distinct names a cycle node can be output: the first `x` is
      scheduled, then `y`, and the second `x`, which closes the cycle
      through `y`, is skipped because its name is already processed. */
  lemma RepeatedNameHidesCycle()
    ensures var x1 := Node("x", [], []);
      var y := Node("y", ["x"], []);
      var x2 := Node("x", ["y"], []);
      && ValidSchedule([x1, y, x2], [x1, y])
      && DependencyCycle([x1, y, x2], [y, x2])
      && y in [x1, y]
  {
  }

  /** `reorderNodes` as its caller evidently intends it: the same traversal,
      reporting failure when some node of the graph could not be scheduled.
      It then succeeds exactly on graphs with distinct names, resolved
      dependencies and no cycle. */
  method ReorderNodesChecked(graph: seq<Node>) returns (ordered: seq<Node>, ok: bool)
    ensures ValidSchedule(graph, ordered) && Closed(graph, ordered)
    ensures ok <==> NamesDistinct(graph) && Resolved(graph) && Acyclic(graph)
    ensures ok ==> multiset(ordered) == multiset(graph)
  {
    var reported;
    ordered, reported := ReorderNodes(graph);
    ok := |ordered| == |graph|;
    if ok {
      FullScheduleWitnesses(graph, ordered);
    }
  }

  /** A list never has more names than nodes. */
  lemma {:induction false} NamesAtMost(g: seq<Node>)
    ensures |Names(g)| <= |g|
  {
    if g != [] {
      NamesAtMost(g[..|g| - 1]);
    }
  }

  /** As many names as nodes means distinct names. */
  lemma {:induction false} DistinctFromCount(g: seq<Node>)
    requires |Names(g)| == |g|
    ensures NamesDistinct(g)
  {
    if g != [] {
      var init := g[..|g| - 1];
      NamesAtMost(init);
      DistinctFromCount(init);
      forall i | 0 <= i < |init| ensures init[i].name != g[|g| - 1].name {
        NameOf(init, init[i]);
      }
    }
  }

  /** A subset with as many elements as the set is the set. */
  lemma SubsetSameCount(a: set<string>, b: set<string>)
    requires a <= b && |a| == |b|
    ensures a == b
  {
    if x :| x in b && x !in a {
      SubsetCount(a, b - {x});
    }
  }

  /** Position of the first node named `name`, or the length if none. */
  function Position(order: seq<Node>, name: string): nat {
    if order == [] then 0 else if order[0].name == name then 0 else 1 + Position(order[1..], name)
  }

  /** With distinct names, the position of a node's name is its index. */
  lemma {:induction false} PositionOf(order: seq<Node>, i: nat)
    requires NamesDistinct(order) && i < |order|
    ensures Position(order, order[i].name) == i
  {
    if i > 0 {
      assert order[0].name != order[i].name;
      assert order[1..][i - 1] == order[i];
      PositionOf(order[1..], i - 1);
    }
  }

  /** A schedule that orders every node of a graph shows that the graph's
      names are distinct, its dependencies resolve and it has no cycle:
      positions in the schedule rank the dependency relation. */
  lemma FullScheduleWitnesses(g: seq<Node>, order: seq<Node>)
    requires ValidSchedule(g, order) && |order| == |g|
    ensures NamesDistinct(g) && Resolved(g) && Acyclic(g)
  {
    NamesSubset(order, g);
    NamesCount(order);
    NamesAtMost(g);
    SubsetCount(Names(order), Names(g));
    DistinctFromCount(g);
    SubsetSameCount(Names(order), Names(g));
    forall n | n in g ensures n.name in Names(order) {
      NameOf(g, n);
    }
    ScheduleCoversGraph(g, order);
    var rank := (name: string) => Position(order, name);
    forall n, d | n in g && d in n.deps ensures d in Names(g) && rank(d) < rank(n.name) {
      var i :| 0 <= i < |order| && order[i] == n;
      NamesSubset(order[..i], order);
      var j := NodeNamed(order[..i], d);
      PositionOf(order, i);
      PositionOf(order, j);
    }
    assert RankedBy(g, rank);
  }
}

=== FILE: schema.dfy ===
/** The table schema derived from a graph, and the SQL text built from it:
    the `DROP TABLE ... ; CREATE TABLE samples(...)` query and the
    parameterised `INSERT INTO samples(...) VALUES (?, ...)` statement.

    Columns are the primary key `id`, then every factory's columns, node by
    node in graph order and factory by factory in declaration order.
 */
module Schema {
  import opened Values
  import opened Nodes
  import opened Seqs

  const IdColumn: string := "id"
  const IdType: string := "INTEGER PRIMARY KEY"
  const TableReset: string := "DROP TABLE IF EXISTS samples;"
  const TableCreate: string := "CREATE TABLE samples("
  const InsertHead: string := "INSERT INTO samples("
  const InsertValues: string := ") VALUES ("

  /** The columns of a list of factories, one factory after the other. */
  function ColumnsOf(fs: seq<Factory>): seq<string> {
    if fs == [] then [] else ColumnNames(fs[0]) + ColumnsOf(fs[1..])
  }

  /** The column types of a list of factories, aligned with `ColumnsOf`. */
  function TypesOf(fs: seq<Factory>): (r: seq<string>)
    ensures |r| == |ColumnsOf(fs)|
  {
    if fs == [] then [] else ColumnTypes(fs[0]) + TypesOf(fs[1..])
  }

  /** Columns of concatenated factory lists are concatenated columns. */
  lemma {:induction false} ColumnsOfAppend(a: seq<Factory>, b: seq<Factory>)
    ensures ColumnsOf(a + b) == ColumnsOf(a) + ColumnsOf(b)
  {
    if a == [] {
      assert a + b == b;
    } else {
      assert (a + b)[1..] == a[1..] + b;
      ColumnsOfAppend(a[1..], b);
      assert ColumnsOf(a + b) == ColumnNames(a[0]) + ColumnsOf(a[1..] + b);
    }
  }

  /** Types of concatenated factory lists are concatenated types. */
  lemma {:induction false} TypesOfAppend(a: seq<Factory>, b: seq<Factory>)
    ensures TypesOf(a + b) == TypesOf(a) + TypesOf(b)
  {
    if a == [] {
      assert a + b == b;
    } else {
      assert (a + b)[1..] == a[1..] + b;
      TypesOfAppend(a[1..], b);
      assert TypesOf(a + b) == ColumnTypes(a[0]) + TypesOf(a[1..] + b);
    }
  }

  /** Columns of a factory list extended by one factory. */
  lemma ColumnsOfSnoc(fs: seq<Factory>, f: Factory)
    ensures ColumnsOf(fs + [f]) == ColumnsOf(fs) + ColumnNames(f)
    ensures TypesOf(fs + [f]) == TypesOf(fs) + ColumnTypes(f)
  {
    ColumnsOfAppend(fs, [f]);
    TypesOfAppend(fs, [f]);
    assert ColumnsOf([f]) == ColumnNames(f) + ColumnsOf([]);
    assert TypesOf([f]) == ColumnTypes(f) + TypesOf([]);
  }

  /** `items` separated by ", ", as the source's loops write them. */
  function Join(items: seq<string>): string {
    if |items| == 0 then ""
    else if |items| == 1 then items[0]
    else items[0] + ", " + Join(items[1..])
  }

  /** Joining one more item adds a separator only if there was one before. */
  lemma {:induction false} JoinSnoc(items: seq<string>, x: string)
    ensures Join(items + [x]) == if |items| == 0 then x else Join(items) + ", " + x
    decreases |items|
  {
    if |items| == 0 {
      assert items + [x] == [x];
    } else if |items| == 1 {
      assert items + [x] == [items[0], x];
      assert [items[0], x][1..] == [x];
    } else {
      assert (items + [x])[1..] == items[1..] + [x];
      JoinSnoc(items[1..], x);
    }
  }

  /** `name type` for each column. */
  function ColumnDefinitions(names: seq<string>, types: seq<string>): (r: seq<string>)
    requires |names| == |types|
    ensures |r| == |names|
  {
    seq(|names|, i requires 0 <= i < |names| => names[i] + " " + types[i])
  }

  /** The schema reset query executed against the database. */
  function CreateTableSql(names: seq<string>, types: seq<string>): string
    requires |names| == |types|
  {
    TableReset + TableCreate + Join(ColumnDefinitions(names, types)) + ");"
  }

  /** `n` parameter placeholders. */
  function Placeholders(n: nat): (r: seq<string>)
    ensures |r| == n && forall k :: 0 <= k < n ==> r[k] == "?"
  {
    seq(n, _ => "?")
  }

  /** The insertion statement for the given columns. */
  function InsertSql(columns: seq<string>): string {
    InsertHead + Join(columns) + InsertValues + Join(Placeholders(|columns|)) + ")"
  }

  /** The column names and types of the `samples` table for a graph: the
      primary key, then each node's factories' columns in graph order. */
  method SchemaColumns(graph: seq<Node>) returns (names: seq<string>, types: seq<string>)
    ensures names == [IdColumn] + ColumnsOf(Factories(graph))
    ensures types == [IdType] + TypesOf(Factories(graph))
    ensures |names| == |types|
  {
    var columns, columnTypes := GraphColumns(graph);
    names := [IdColumn] + columns;
    types := [IdType] + columnTypes;
  }

  /** The factory columns of a graph, node by node. */
  method GraphColumns(graph: seq<Node>) returns (names: seq<string>, types: seq<string>)
    ensures names == ColumnsOf(Factories(graph))
    ensures types == TypesOf(Factories(graph))
  {
    names, types := [], [];
    for i := 0 to |graph|
      invariant names == ColumnsOf(Factories(graph[..i]))
      invariant types == TypesOf(Factories(graph[..i]))
    {
      names, types := AppendColumns(names, types, graph[i].factories);
      GraphColumnsSnoc(graph, i);
    }
    assert graph[..|graph|] == graph;
  }

  /** The columns of a graph prefix extended by the next node. */
  lemma GraphColumnsSnoc(graph: seq<Node>, i: nat)
    requires i < |graph|
    ensures ColumnsOf(Factories(graph[..i + 1]))
        == ColumnsOf(Factories(graph[..i])) + ColumnsOf(graph[i].factories)
    ensures TypesOf(Factories(graph[..i + 1])) == TypesOf(Factories(graph[..i])) + TypesOf(graph[i].factories)
  {
    assert graph[..i + 1] == graph[..i] + [graph[i]];
    FactoriesSnoc(graph[..i], graph[i]);
    ColumnsOfAppend(Factories(graph[..i]), graph[i].factories);
    TypesOfAppend(Factories(graph[..i]), graph[i].factories);
  }

  /** The inner loop of `SchemaColumns`: append the columns of one node's
      factories, factory by factory. */
  method AppendColumns(names: seq<string>, types: seq<string>, fs: seq<Factory>)
    returns (names': seq<string>, types': seq<string>)
    ensures names' == names + ColumnsOf(fs)
    ensures types' == types + TypesOf(fs)
  {
    names', types' := names, types;
    for j := 0 to |fs|
      invariant names' == names + ColumnsOf(fs[..j])
      invariant types' == types + TypesOf(fs[..j])
    {
      var localNames := ColumnNames(fs[j]);
      var localTypes := ColumnTypes(fs[j]);
      PrefixColumnsSnoc(names, types, fs, j);
      names' := names' + localNames;
      types' := types' + localTypes;
    }
    assert fs[..|fs|] == fs;
  }

  /** One step of `AppendColumns`: the next factory's columns extend those
      of the prefix before it. */
  lemma PrefixColumnsSnoc(names: seq<string>, types: seq<string>, fs: seq<Factory>, j: nat)
    requires j < |fs|
    ensures names + ColumnsOf(fs[..j]) + ColumnNames(fs[j]) == names + ColumnsOf(fs[..j + 1])
    ensures types + TypesOf(fs[..j]) + ColumnTypes(fs[j]) == types + TypesOf(fs[..j + 1])
  {
    assert fs[..j + 1] == fs[..j] + [fs[j]];
    ColumnsOfSnoc(fs[..j], fs[j]);
  }

  /** The schema reset query, one column definition after the other. */
  method TableQuery(names: seq<string>, types: seq<string>) returns (query: string)
    requires |names| == |types|
    ensures query == CreateTableSql(names, types)
  {
    var defs := ColumnDefinitions(names, types);
    var joined := "";
    for i := 0 to |names|
      invariant joined == Join(defs[..i])
    {
      var def := names[i] + " " + types[i];
      assert def == defs[i];
      assert defs[..i + 1] == defs[..i] + [def];
      JoinSnoc(defs[..i], def);
      if i > 0 {
        joined := joined + ", " + def;
      } else {
        joined := def;
      }
    }
    assert defs[..|names|] == defs;
    query := TableReset + TableCreate + joined + ");";
  }

  /** The insertion statement for a list of factories, and its number of
      fields. One placeholder is written per field. */
  method InsertionStatement(factories: seq<Factory>) returns (sql: string, fieldCount: nat)
    ensures fieldCount == |ColumnsOf(factories)|
    ensures sql == InsertSql(ColumnsOf(factories))
  {
    var columns;
    columns, fieldCount := ColumnList(factories);
    var marks := PlaceholderList(fieldCount);
    sql := InsertHead + columns + InsertValues + marks + ")";
  }

  /** The column list of the insertion statement, and how many columns it
      names: a separator before every column but the first. */
  method ColumnList(factories: seq<Factory>) returns (list: string, count: nat)
    ensures count == |ColumnsOf(factories)|
    ensures list == Join(ColumnsOf(factories))
  {
    list, count := "", 0;
    for i := 0 to |factories|
      invariant count == |ColumnsOf(factories[..i])|
      invariant list == Join(ColumnsOf(factories[..i]))
    {
      list, count := AppendColumnNames(list, count, ColumnsOf(factories[..i]), ColumnNames(factories[i]));
      assert factories[..i + 1] == factories[..i] + [factories[i]];
      ColumnsOfSnoc(factories[..i], factories[i]);
    }
    assert factories[..|factories|] == factories;
  }

  /** The inner loop of `ColumnList`: append one factory's column names. */
  method AppendColumnNames(list: string, count: nat, ghost before: seq<string>, local: seq<string>)
    returns (list': string, count': nat)
    requires count == |before| && list == Join(before)
    ensures count' == |before + local| && list' == Join(before + local)
  {
    list', count' := list, count;
    assert before + local[..0] == before;
    for j := 0 to |local|
      invariant count' == |before + local[..j]|
      invariant list' == Join(before + local[..j])
    {
      assert before + local[..j + 1] == (before + local[..j]) + [local[j]];
      JoinSnoc(before + local[..j], local[j]);
      if count' > 0 {
        list' := list' + ", ";
      }
      list' := list' + local[j];
      count' := count' + 1;
    }
    assert local[..|local|] == local;
  }

  /** The placeholder list of the insertion statement: `n` question marks. */
  method PlaceholderList(n: nat) returns (list: string)
    ensures list == Join(Placeholders(n))
  {
    list := "";
    for i := 0 to n
      invariant list == Join(Placeholders(i))
    {
      assert Placeholders(i + 1) == Placeholders(i) + ["?"];
      JoinSnoc(Placeholders(i), "?");
      if i > 0 {
        list := list + ", ";
      }
      list := list + "?";
    }
  }

  /** The placeholder list of `n` fields holds exactly `n` question marks. */
  lemma {:induction false} PlaceholderMarks(n: nat)
    ensures Count(Join(Placeholders(n)), '?') == n
  {
    if n > 0 {
      PlaceholderMarks(n - 1);
      PlaceholderStep(n);
      if n > 1 {
        CountAppend(Join(Placeholders(n - 1)), ", ?", '?');
        SeparatedMark();
      } else {
        SingleMark();
      }
    }
  }

  /** One more field adds a separator and a mark to the placeholder list. */
  lemma PlaceholderStep(n: nat)
    requires n > 0
    ensures Join(Placeholders(n)) == if n == 1 then "?" else Join(Placeholders(n - 1)) + ", ?"
  {
    assert Placeholders(n) == Placeholders(n - 1) + ["?"];
    JoinSnoc(Placeholders(n - 1), "?");
  }

  /** A separator followed by a placeholder holds one question mark. */
  lemma SeparatedMark()
    ensures Count(", ?", '?') == 1
  {
    assert ", ?"[1..] == " ?" && " ?"[1..] == "?" && "?"[1..] == "";
  }

  /** A lone placeholder is one question mark. */
  lemma SingleMark()
    ensures Count("?", '?') == 1
  {
    assert "?"[1..] == "";
  }
}

=== FILE: seqs.dfy ===
/** Counting occurrences in a sequence, shared by the scheduler (a child
    listed once per declared dependency) and the schema (the `?` marks of
    an insertion statement). */
module Seqs {
  /** Number of times `x` occurs in `s`. */
  function Count<T(==)>(s: seq<T>, x: T): (k: nat)
    ensures k > 0 <==> x in s
    ensures k <= |s|
  {
    if s == [] then 0 else (if s[0] == x then 1 else 0) + Count(s[1..], x)
  }

  /** Occurrences add up over concatenation. */
  lemma {:induction false} CountAppend<T>(a: seq<T>, b: seq<T>, x: T)
    ensures Count(a + b, x) == Count(a, x) + Count(b, x)
  {
    if a == [] {
      assert a + b == b;
    } else {
      assert (a + b)[1..] == a[1..] + b;
      CountAppend(a[1..], b, x);
    }
  }
}

=== FILE: source.dfy ===
/** `SourceBody`: the message source of the pipeline. Each call either emits
    the next sample number and returns true, or returns false once all
    `numSamples` numbers have been emitted. Both counters are C++ `int`s;
    the increment cannot overflow, as it only happens below `numSamples`.
 */
module Source {
  import opened Values
  import opened Wrappers

  datatype SourceBody = SourceBody(numSamples: int32, nextSample: int32)

  /** A source that will emit `numSamples` sample numbers. */
  function NewSource(numSamples: int32): (s: SourceBody)
    ensures s.numSamples == numSamples && s.nextSample == 0
  {
    SourceBody(numSamples, 0)
  }

  /** One call of the body: the emitted message (`None` for `false`) and
      the source's state afterwards. */
  function Pull(s: SourceBody): (r: (SourceBody, Option<int32>))
    ensures r.0.numSamples == s.numSamples
    ensures r.1.Some? <==> s.nextSample < s.numSamples
    ensures r.1.Some? ==> r.1.value == s.nextSample && r.0.nextSample as int == s.nextSample as int + 1
    ensures r.1.None? ==> r.0 == s
  {
    if s.nextSample < s.numSamples then
      (s.(nextSample := s.nextSample + 1), Some(s.nextSample))
    else
      (s, None)
  }

  /** The messages of `k` successive calls. */
  function Emissions(s: SourceBody, k: nat): seq<Option<int32>>
    decreases k
  {
    if k == 0 then [] else [Pull(s).1] + Emissions(Pull(s).0, k - 1)
  }

  /** From any state, call `i` emits the number `nextSample + i` while that
      is below `numSamples`, and nothing afterwards. */
  lemma {:induction false} EmissionsFrom(s: SourceBody, k: nat)
    ensures |Emissions(s, k)| == k
    ensures forall i :: 0 <= i < k ==>
      Emissions(s, k)[i] == if s.nextSample as int + i < s.numSamples as int
                            then Some((s.nextSample as int + i) as int32) else None
    decreases k
  {
    if k > 0 {
      var t := Pull(s).0;
      EmissionsFrom(t, k - 1);
      forall i | 0 <= i < k
        ensures Emissions(s, k)[i] == if s.nextSample as int + i < s.numSamples as int
                                      then Some((s.nextSample as int + i) as int32) else None
      {
        if i > 0 {
          assert Emissions(s, k)[i] == Emissions(t, k - 1)[i - 1];
        }
      }
    }
  }

  /** A new source for `n` samples emits 0, 1, ..., n - 1 in order, each
      once, and then nothing however often it is called; for `n <= 0` it
      emits nothing at all. */
  lemma SourceYieldsEachIndexOnce(n: int32, k: nat)
    ensures |Emissions(NewSource(n), k)| == k
    ensures forall i :: 0 <= i < k ==>
      Emissions(NewSource(n), k)[i] == if i < n as int then Some(i as int32) else None
  {
    EmissionsFrom(NewSource(n), k);
  }
}

=== FILE: stale_sampler.dfy ===
/** The older driver of `src/banesa.cpp`. Its three-parameter `run` is
    declared in no header, so nothing calls it: the example program's
    three-argument call resolves to `Sampler::run` with `multithread`
    defaulted to false (`Sampler.Run` here). This driver opens the database
    and creates the table in two separate phases, allocates one value per
    factory directly, builds the insertion statement from the values'
    factories, never reorders the graph (nodes are evaluated in declared
    order), and ignores the result of closing the database. Its sampling
    loop is the sequential one.
 */
module StaleSampler {
  import opened Values
  import opened Wrappers
  import opened Nodes
  import opened Schema
  import opened Allocation
  import opened Evaluation
  import opened Storage
  import Sampler

  /** The phase that stopped a run of this driver. */
  datatype StaleFailure =
    | OpenFailed
    | CreateTableFailed
    | PrepareFailed
    | InsertFailed

  /** The message printed before exiting. */
  function StaleMessage(f: StaleFailure): string {
    match f
    case OpenFailed => "Could not open database!"
    case CreateTableFailed => "Could not create table!"
    case PrepareFailed => "Could not create insertion statement!"
    case InsertFailed => "Could not insert sample to database!"
  }

  /** Each failure has a message of its own. */
  lemma StaleMessagesIdentifyFailures(f: StaleFailure, g: StaleFailure)
    requires StaleMessage(f) == StaleMessage(g)
    ensures f == g
  {
  }

  /** `createTable`: build the same schema query as `initializeDatabase`
      and execute it on the open database. */
  method CreateTable(graph: seq<Node>, db: Sampler.Database) returns (query: string, ok: bool)
    ensures query == CreateTableSql([IdColumn] + ColumnsOf(Factories(graph)),
        [IdType] + TypesOf(Factories(graph)))
    ensures ok <==> db.execOk
  {
    var names, types := SchemaColumns(graph);
    query := TableQuery(names, types);
    ok := db.execOk;
  }

  /** `createInsertionStatement` over values: the columns are those of
      each value's factory, in slot order. */
  method CreateInsertionStatementFromValues(values: seq<Value>, db: Sampler.Database)
    returns (sql: string, fieldCount: nat, ok: bool)
    ensures sql == InsertSql(ColumnsOf(FactoriesOf(values)))
    ensures fieldCount == |ColumnsOf(FactoriesOf(values))|
    ensures ok <==> db.prepareOk
  {
    sql, fieldCount := InsertionStatement(FactoriesOf(values));
    ok := db.prepareOk;
  }

  /** Fresh values carry the factories they were created from, so the
      insertion statement built from them names the table's columns. */
  lemma FreshValuesKeepFactories(fs: seq<Factory>)
    ensures FactoriesOf(FreshValues(fs)) == fs
  {
  }

  /** `run(graph, num_samples, db_path)`. The evaluation order is the graph
      itself. Every dependency must name a graph node and names must be
      distinct: a missing name makes `node_map[...]` hand out a null node
      that is then dereferenced. */
  method StaleRun(graph: seq<Node>, numSamples: int32, db: Sampler.Database, behaviour: Behaviour)
    returns (out: Sampler.Outcome<StaleFailure>)
    requires NamesDistinct(graph) && Resolved(graph)
    ensures out.order == graph && Schedulable(Allocate(graph), graph)
    ensures out.failure == Some(OpenFailed) <==> !db.openOk
    ensures db.openOk ==> out.query == CreateTableSql([IdColumn] + ColumnsOf(Factories(graph)),
        [IdType] + TypesOf(Factories(graph)))
    ensures out.failure == Some(CreateTableFailed) <==> db.openOk && !db.execOk
    ensures Sampler.Initialized(db) ==> out.insertSql == InsertSql(ColumnsOf(Factories(graph)))
    ensures out.failure == Some(PrepareFailed) <==> Sampler.Initialized(db) && !db.prepareOk
    ensures !Sampler.Prepared(db) ==> out.rows == []
    ensures Sampler.Prepared(db) ==>
              |out.rows| == Sampler.SuccessfulPrefix(db.stepOk, Sampler.SampleCount(numSamples))
    ensures Sampler.Prepared(db) ==>
              out.rows == Sampler.SweepRows(Allocate(graph), graph, behaviour, |out.rows|)
    ensures Sampler.Prepared(db) ==> (out.failure == None <==> |out.rows| == Sampler.SampleCount(numSamples))
  {
    GraphNodesResolve(graph);
    var query, sql, rows := "", "", [];
    var ok := db.openOk;
    var err := OpenFailed;
    if ok {
      query, ok := CreateTable(graph, db);
      err := CreateTableFailed;
    }
    var a := Allocate(graph);
    var values := FreshValues(a.factories);
    var fieldCount := 0;
    if ok {
      sql, fieldCount, ok := CreateInsertionStatementFromValues(values, db);
      err := PrepareFailed;
      FreshValuesKeepFactories(a.factories);
    }
    var ordered := graph;
    if ok {
      rows, ok := Sampler.SampleSequentially(a, ordered, behaviour, numSamples, db.stepOk, fieldCount, map[]);
      err := InsertFailed;
    }
    out := Sampler.Outcome(if ok then None else Some(err), query, sql, ordered, rows);
  }
}

=== FILE: storage.dfy ===
/** `saveSample`: bind every value of the vector into the insertion
    statement, threading the parameter offset from 1, then step the
    statement. The statement keeps its bindings between samples (a reset
    does not clear them); every parameter is bound again anyway.
 */
module Storage {
  import opened Values
  import opened Schema
  import opened Allocation

  /** The parameters of a whole value vector, value after value. */
  function Row(values: seq<Value>): seq<Param> {
    if values == [] then [] else Fields(values[0]) + Row(values[1..])
  }

  /** The binding loop: each value binds its parameters at the running
      offset and advances it. Parameters end up exactly at the positions
      `offset`, `offset + 1`, ... of the row; other bindings are kept. */
  function BindAll(values: seq<Value>, stmt: Statement, offset: int): (r: (Statement, int))
    ensures BindsAt(stmt, offset, Row(values), r)
    decreases |values|
  {
    if values == [] then (stmt, offset)
    else
      var bound := Bind(values[0], stmt, offset);
      var rest := BindAll(values[1..], bound.0, bound.1);
      BindingsCompose(stmt, offset, Fields(values[0]), bound, Row(values[1..]), rest, Row(values));
      rest
  }

  /** Binding `head` at `offset`, then `tail` right after it, binds
      `head + tail` at `offset`. */
  lemma BindingsCompose(stmt: Statement, offset: int, head: seq<Param>, mid: (Statement, int),
                        tail: seq<Param>, r: (Statement, int), whole: seq<Param>)
    requires whole == head + tail
    requires BindsAt(stmt, offset, head, mid)
    requires BindsAt(mid.0, mid.1, tail, r)
    ensures BindsAt(stmt, offset, whole, r)
  {
  }

  /** `saveSample`'s bindings: offset 1 first, so the row occupies
      parameters 1 to its width, and the final offset is one past it. */
  function SaveSample(stmt: Statement, values: seq<Value>): (r: (Statement, int))
    ensures BindsAt(stmt, 1, Row(values), r)
  {
    BindAll(values, stmt, 1)
  }

  /** A vector of well-typed values binds as many parameters as its
      factories declare columns. */
  lemma {:induction false} RowWidth(values: seq<Value>)
    requires forall k :: 0 <= k < |values| ==> WellTyped(values[k])
    ensures |Row(values)| == |ColumnsOf(FactoriesOf(values))|
  {
    if values != [] {
      RowWidth(values[1..]);
      assert FactoriesOf(values) == [values[0].factory] + FactoriesOf(values[1..]);
      ColumnsOfAppend([values[0].factory], FactoriesOf(values[1..]));
      assert ColumnsOf([values[0].factory]) == ColumnNames(values[0].factory) + ColumnsOf([]);
    }
  }

  /** A well-typed value vector aligned with an allocation fills exactly the
      placeholders of the allocation's insertion statement: `saveSample`'s
      offset ends one past the last column. */
  lemma RowFillsPlaceholders(stmt: Statement, values: seq<Value>, a: Allocation)
    requires Aligned(values, a)
    requires forall k :: 0 <= k < |values| ==> WellTyped(values[k])
    ensures |Row(values)| == |ColumnsOf(a.factories)|
    ensures SaveSample(stmt, values).1 == 1 + |ColumnsOf(a.factories)|
  {
    RowWidth(values);
    assert FactoriesOf(values) == a.factories;
  }

  /** The row a successful step inserts: parameters 1 to `width`, the
      columns the insertion statement names. */
  function Inserted(stmt: Statement, width: nat): (row: seq<Param>)
    requires forall p :: 1 <= p <= width ==> p in stmt
    ensures |row| == width
  {
    seq(width, k requires 0 <= k < width => stmt[1 + k])
  }

  /** After `saveSample`, every placeholder of the insertion statement is
      bound, and the inserted row is the values' fields in slot order,
      whatever the statement held before. */
  lemma SaveSampleStoresRow(stmt: Statement, values: seq<Value>, a: Allocation)
    requires Aligned(values, a)
    requires forall k :: 0 <= k < |values| ==> WellTyped(values[k])
    ensures forall p :: 1 <= p <= |ColumnsOf(a.factories)| ==> p in SaveSample(stmt, values).0
    ensures Inserted(SaveSample(stmt, values).0, |ColumnsOf(a.factories)|) == Row(values)
  {
    RowFillsPlaceholders(stmt, values, a);
  }
}

=== FILE: values.dfy ===
/** Output slots of a node: the closed set of value factories, the values they
    create, and how a value binds itself into a prepared SQL statement.

    The four factory kinds are primitive (int or double), file-backed, hidden
    and SE3 pose. A factory contributes column names and matching column
    types to the table schema; a value contributes the same number of bound
    parameters to each inserted row.
 */
module Values {

  /** The C++ `int` held by an integer slot and passed to the statement. */
  newtype int32 = x: int | -0x8000_0000 <= x < 0x8000_0000

  /** Scalar kind of a primitive factory (`PrimitiveValueFactory<int>` / `<double>`). */
  datatype PrimitiveKind = IntKind | DoubleKind

  /** A named blueprint for one output slot. Every kind carries its name. */
  datatype Factory =
    | PrimitiveFactory(name: string, kind: PrimitiveKind)
    | FileFactory(name: string)
    | HiddenFactory(name: string)
    | SE3Factory(name: string)

  /** User payload held by file-backed and hidden values (an image, for
      instance). The core never inspects it; a default-constructed payload is
      the empty byte string. */
  type Payload = seq<bv8>

  /** Contents of a value. Which alternative a value holds is its dynamic
      type, chosen once by the factory that created it. Doubles are only
      stored and bound, never computed on, so they are modelled as reals. */
  datatype Cell =
    | IntCell(i: int32)
    | DoubleCell(d: real)
    | FileCell(path: string, payload: Payload)
    | HiddenCell(payload: Payload)
    | PoseCell(tx: real, ty: real, tz: real, qw: real, qi: real, qj: real, qk: real)

  /** A value: the factory it was created by, and its current contents. */
  datatype Value = Value(factory: Factory, cell: Cell)

  /** One bound statement parameter. */
  datatype Param = IntParam(i: int32) | DoubleParam(d: real) | TextParam(s: string)
  {
    /** The zero of the parameter's type: 0, 0.0 or the empty string. */
    predicate IsZero() {
      match this
      case IntParam(i) => i == 0
      case DoubleParam(d) => d == 0.0
      case TextParam(s) => s == ""
    }
  }

  /** Parameter bindings of a prepared statement, by 1-based index. An absent
      index is a parameter that was never bound. */
  type Statement = map<int, Param>

  /** Number of columns a factory of this kind contributes: 1, 1, 0 or 7. */
  function Arity(f: Factory): nat {
    match f
    case PrimitiveFactory(_, _) => 1
    case FileFactory(_) => 1
    case HiddenFactory(_) => 0
    case SE3Factory(_) => 7
  }

  /** The SQL column names a factory contributes (`getSqlFieldNames`). The
      result is a fresh list: whatever the caller's vector held is discarded. */
  function ColumnNames(f: Factory): (r: seq<string>)
    ensures |r| == Arity(f)
  {
    match f
    case PrimitiveFactory(name, _) => [name]
    case FileFactory(name) => [name + "_path"]
    case HiddenFactory(_) => []
    case SE3Factory(name) =>
      [ name + "_translation_x", name + "_translation_y", name + "_translation_z",
        name + "_quaternion_w", name + "_quaternion_i", name + "_quaternion_j",
        name + "_quaternion_k" ]
  }

  /** The SQL column types a factory contributes (`getSqlFieldTypes`). */
  function ColumnTypes(f: Factory): (r: seq<string>)
    ensures |r| == Arity(f)
  {
    match f
    case PrimitiveFactory(_, IntKind) => ["INTEGER"]
    case PrimitiveFactory(_, DoubleKind) => ["FLOAT"]
    case FileFactory(_) => ["TEXT"]
    case HiddenFactory(_) => []
    case SE3Factory(_) => ["FLOAT", "FLOAT", "FLOAT", "FLOAT", "FLOAT", "FLOAT", "FLOAT"]
  }

  /** Every column a factory contributes is named after the factory. */
  lemma ColumnsNamedAfterFactory(f: Factory)
    ensures forall k :: 0 <= k < |ColumnNames(f)| ==> f.name <= ColumnNames(f)[k]
  {
  }

  /** Every column type is one of the SQL types the table uses. */
  lemma ColumnTypesAreSqlTypes(f: Factory)
    ensures forall k :: 0 <= k < |ColumnTypes(f)| ==>
      ColumnTypes(f)[k] in ["INTEGER", "FLOAT", "TEXT"]
  {
  }

  /** The dynamic type a factory gives the values it creates. */
  predicate CellFits(f: Factory, c: Cell) {
    match f
    case PrimitiveFactory(_, IntKind) => c.IntCell?
    case PrimitiveFactory(_, DoubleKind) => c.DoubleCell?
    case FileFactory(_) => c.FileCell?
    case HiddenFactory(_) => c.HiddenCell?
    case SE3Factory(_) => c.PoseCell?
  }

  /** A value whose contents have the dynamic type its factory creates. */
  predicate WellTyped(v: Value) {
    CellFits(v.factory, v.cell)
  }

  /** Two cells of the same dynamic type. */
  predicate SameKind(a: Cell, b: Cell) {
    match a
    case IntCell(_) => b.IntCell?
    case DoubleCell(_) => b.DoubleCell?
    case FileCell(_, _) => b.FileCell?
    case HiddenCell(_) => b.HiddenCell?
    case PoseCell(_, _, _, _, _, _, _) => b.PoseCell?
  }

  /** The parameters a value contributes to a row, in column order. */
  function Fields(v: Value): (r: seq<Param>)
    ensures WellTyped(v) ==> |r| == |ColumnNames(v.factory)|
  {
    match v.cell
    case IntCell(i) => [IntParam(i)]
    case DoubleCell(d) => [DoubleParam(d)]
    case FileCell(path, _) => [TextParam(path)]
    case HiddenCell(_) => []
    case PoseCell(tx, ty, tz, qw, qi, qj, qk) =>
      [ DoubleParam(tx), DoubleParam(ty), DoubleParam(tz),
        DoubleParam(qw), DoubleParam(qi), DoubleParam(qj), DoubleParam(qk) ]
  }

  /** `createValue`: a new value bound to `f`, every field at its type's zero
      (the pose's quaternion included). */
  function CreateValue(f: Factory): (v: Value)
    ensures v.factory == f
    ensures WellTyped(v)
    ensures forall k :: 0 <= k < |Fields(v)| ==> Fields(v)[k].IsZero()
  {
    var cell :=
      match f
      case PrimitiveFactory(_, IntKind) => IntCell(0)
      case PrimitiveFactory(_, DoubleKind) => DoubleCell(0.0)
      case FileFactory(_) => FileCell("", [])
      case HiddenFactory(_) => HiddenCell([])
      case SE3Factory(_) => PoseCell(0.0, 0.0, 0.0, 0.0, 0.0, 0.0, 0.0);
    Value(f, cell)
  }

  /** Squared norm of a pose's quaternion; a rotation needs it to be 1. */
  function QuaternionNormSquared(c: Cell): real
    requires c.PoseCell?
  {
    c.qw * c.qw + c.qi * c.qi + c.qj * c.qj + c.qk * c.qk
  }

  /** A freshly created pose is not a rotation: its quaternion is all zero. */
  lemma FreshPoseIsNotARotation(name: string)
    ensures CreateValue(SE3Factory(name)).cell.PoseCell?
    ensures QuaternionNormSquared(CreateValue(SE3Factory(name)).cell) != 1.0
  {
  }

  /** `FileValue::setPath`: only a file-backed value has a path. The payload
      and the factory are left alone. */
  function SetPath(v: Value, path: string): (r: Value)
    requires v.cell.FileCell?
    ensures r.factory == v.factory && WellTyped(r) == WellTyped(v)
    ensures r.cell.FileCell? && r.cell.payload == v.cell.payload
    ensures Fields(r) == [TextParam(path)]
  {
    v.(cell := v.cell.(path := path))
  }

  /** `r` is `stmt` with `row` bound at parameters `offset`, `offset + 1`,
      ..., its offset advanced past the row, and every other binding kept. */
  predicate BindsAt(stmt: Statement, offset: int, row: seq<Param>, r: (Statement, int)) {
    && r.1 == offset + |row|
    && (forall p :: offset <= p < r.1 ==> p in r.0 && r.0[p] == row[p - offset])
    && (forall k :: k in stmt && !(offset <= k < r.1) ==> k in r.0 && r.0[k] == stmt[k])
    && (forall k :: k in r.0 ==> k in stmt || offset <= k < r.1)
  }

  /** `Value::bind`: write the value's parameters into `stmt` starting at
      `offset` and return the advanced offset. Each kind writes its own
      fields one by one, as the source does. */
  function Bind(v: Value, stmt: Statement, offset: int): (r: (Statement, int))
    ensures BindsAt(stmt, offset, Fields(v), r)
  {
    match v.cell
    case IntCell(i) => (stmt[offset := IntParam(i)], offset + 1)
    case DoubleCell(d) => (stmt[offset := DoubleParam(d)], offset + 1)
    case FileCell(path, _) => (stmt[offset := TextParam(path)], offset + 1)
    case HiddenCell(_) => (stmt, offset)
    case PoseCell(tx, ty, tz, qw, qi, qj, qk) =>
      var s := stmt[offset + 0 := DoubleParam(tx)][offset + 1 := DoubleParam(ty)]
                   [offset + 2 := DoubleParam(tz)][offset + 3 := DoubleParam(qw)]
                   [offset + 4 := DoubleParam(qi)][offset + 5 := DoubleParam(qj)]
                   [offset + 6 := DoubleParam(qk)];
      (s, offset + 7)
  }

  /** A well-typed value advances the offset by exactly the number of
      columns its factory declares. */
  lemma BindAdvancesByColumnCount(v: Value, stmt: Statement, offset: int)
    requires WellTyped(v)
    ensures Bind(v, stmt, offset).1 == offset + |ColumnNames(v.factory)|
    ensures Bind(v, stmt, offset).1 == offset + Arity(v.factory)
  {
  }
}

=== FILE: wrappers.dfy ===
/** An optional value. */
module Wrappers {
  datatype Option<T> = None | Some(value: T)
}
